=== FILE: README.md ===
# Blog app — a Dafny model of its decision logic

This project models the decision logic of a small blog application, leaving out I/O. The application is an Express/MongoDB API with a React client.

Backend:

- **Blog store and handlers.** The blog store is a `map<BlogId, Blog>`. The `POST /` handler and the `GET`/`PUT`/`DELETE /:id` handlers are functions from a store to a status, a response body and the next store. The ownership gates run in order: 404, then 401.
- **Listing.** `GET /` sorts newest first and pages with offset/limit. `parseInt(x) || default` supplies the defaults, and `Math.ceil` gives the page count.
- **`protect` middleware.** It extracts the bearer token from the `Authorization` header. It then verifies the token and looks up the user, which has three outcomes: 401, 404, or proceed with the password-less user attached.
- **`/register` and `/login`.** These run over a user collection keyed by e-mail.

Client:

- **Page-number list.** This is `getPageNumbers` in the pagination widget, together with when Previous and Next are disabled.
- **Blog card.** The 150-character content preview.
- **Blog detail page.** `isAuthor`, the author label, the newline split into paragraphs, the priority between the four render states, and the confirm-then-delete button.
- **Create and edit forms.** The submit-time validation they share, and the failure message each page shows.

Some operations are oracles: function-valued parameters that the caller supplies.

- JWT signing and verification are `sign` and `decode`. Only the `exp` check that `jwt.verify` performs is modelled: a token is accepted strictly before `exp`, and `exp` is `iat` plus 86400 seconds.
- bcrypt is `hash` and `compare`.
- `User.findById` is `findById`, which returns found, absent or a thrown error.
- Mongoose's ObjectId cast is `isObjectId`.
- The store assigns new ids (`newId`), and the clock gives `now`.

String operations follow JavaScript:

- `split` on one character, where `''.split(c)` is `['']`;
- `startsWith`;
- `trim`, with ECMAScript's white-space and line-terminator set.

Modules: `Base` (Option), `Strings`, `Http`, `Accounts`, `Middleware`, `AuthRoutes`, `Blogs`, `BlogListing`, `BlogApi` (`protect` in front of the handlers), `Pagination`, `BlogCard`, `BlogDetail`, `BlogForm`.

## Model

| member | source | states |
|---|---|---|
| Strings.JoinSplit | frontend/src/pages/BlogDetail.js:113 | Joining the pieces of `split(c)` with `c` gives back the string. |
| Strings.Split | frontend/src/pages/BlogDetail.js:113 | `split(c)` yields one piece more than there are occurrences of `c`, and no piece contains `c`. |
| Strings.SplitJoin | backend/middleware/auth.js:10 | Splitting a join of separator-free pieces (at least one) gives back exactly those pieces. |
| Strings.StartsWith | backend/middleware/auth.js:9 | `startsWith(prefix)` holds iff the string is at least as long as the prefix and agrees with it character by character; the string is then the prefix followed by the rest. |
| Strings.Trim | frontend/src/pages/CreateBlog.js:27 | `trim` returns a contiguous slice of the string with only white space cut on either side, and the result neither starts nor ends with white space. |
| Strings.TrimEmptyIffBlank | frontend/src/pages/CreateBlog.js:27 | `trim` yields the empty string exactly when every character is white space. |
| Accounts.Issue | backend/routes/auth.js:31-33 | The signed claims carry the user's id and the issue time, and expire exactly 86400 seconds (`'1d'`) after issue. |
| Accounts.Verify | backend/middleware/auth.js:20 | `jwt.verify` yields an id iff the token decodes and `now` is strictly before its `exp`; the id is the one the token carries. |
| Accounts.TokenLifetime | backend/routes/auth.js:31-33 | A token issued at `t` for user `id` verifies to `id` exactly while `now < t + 86400`, and is rejected from then on. |
| Middleware.ExtractToken | backend/middleware/auth.js:9-11 | A token is found only in a header that starts with `Bearer`. A found token is non-empty and has no space. |
| Middleware.SecondFieldIsToken | backend/middleware/auth.js:9-10 | For every header `scheme + ' ' + t + rest` with a `Bearer`-prefixed scheme and `rest` empty or starting with a space, the token is the second field `t`, or none when `t` is empty. |
| Middleware.SingleFieldHasNoToken | backend/middleware/auth.js:10-16 | A header without a space has no second field, so it carries no token. |
| Middleware.BearerRoundTrip | backend/middleware/auth.js:10 | The header the client builds, `'Bearer ' + t`, yields exactly `t` when `t` is non-empty and space-free. |
| Middleware.SchemeAloneHasNoToken | backend/middleware/auth.js:10-16 | The header `Bearer` alone carries no token. |
| Middleware.Subject | backend/middleware/auth.js:9-20 | The request authenticates as an id iff the header carries a token that decodes and has not expired; the id is the one that token carries. |
| Middleware.Protect | backend/middleware/auth.js:5-35 | No token gives 401 with "Not authorized to access this route". The request proceeds iff the token verifies and the lookup finds the user, whose password-less view is attached. 404 "User not found" iff the token verifies but the user is absent. Every other rejection is that same 401. |
| Middleware.BadTokenLooksLikeMissingToken | backend/middleware/auth.js:32-35 | A token that fails verification is answered exactly as a missing token is. |
| AuthRoutes.Register | backend/routes/auth.js:9-47 | A taken e-mail gives 400 "User already exists" and leaves the users unchanged. Otherwise: 201; exactly one user added under that e-mail; all others kept; a token for the new id; a view with id, name and e-mail only. |
| AuthRoutes.Login | backend/routes/auth.js:52-88 | Never changes the users. 200 iff the e-mail is known and the password matches, with a token for that user's id and the public view. Otherwise the same 400 "Invalid credentials". |
| AuthRoutes.RegisterKeepsInvariants | backend/routes/auth.js:14-28 | Registering keeps every user filed under its own e-mail, and keeps ids unique when the new id is fresh. |
| AuthRoutes.RegisterTwiceFails | backend/routes/auth.js:14-18 | Once an e-mail is registered, a second registration with it fails with 400 and changes nothing. |
| AuthRoutes.LoginFailuresIndistinguishable | backend/routes/auth.js:59-68 | An unknown e-mail and a wrong password give the same status and the same body. |
| AuthRoutes.RegisterThenLogin | backend/routes/auth.js:52-82 | After registering, logging in with the same credentials succeeds with the same public view, when the password check accepts the hash of the password. |
| AuthRoutes.LoginTokenAuthenticates | backend/routes/auth.js:71-73 | The login token passes `protect`, with the user's view attached, until one day after login. From then on it gets 401. |
| Blogs.Get | backend/routes/blogs.js:37-53 | 200 with the blog iff the id is a well-formed stored id. Otherwise 404 "Blog not found", never 500. The store is unchanged. |
| Blogs.Create | backend/routes/blogs.js:58-75 | With a fresh id: 201, one blog added with the caller as author, every existing blog unchanged. With a taken id: 500 `{error: 'Server error'}` and the store unchanged. |
| Blogs.Update | backend/routes/blogs.js:80-109 | 404 iff missing or malformed; otherwise 401 iff the caller is not the author; both leave the store unchanged. Otherwise only that blog's title and content change. |
| Blogs.Delete | backend/routes/blogs.js:114-137 | The same 404-then-401 gates, answering "Blog not found" and "User not authorized" and leaving the store unchanged. Otherwise exactly that id is removed, the rest is unchanged, and the body is "Blog removed". |
| Blogs.AuthorNeverReassigned | backend/routes/blogs.js:62-97 | No handler gives an existing blog a different author. |
| Blogs.OthersBlogsUntouched | backend/routes/blogs.js:80-127 | Whatever requests a user sends, blogs by other authors stay unchanged, and no blog by another author appears. |
| BlogListing.Insert | backend/routes/blogs.js:16 | Inserting one more stored blog into a distinct, newest-first list keeps it distinct and newest first, and adds exactly that id. |
| BlogListing.SortByRecency | backend/routes/blogs.js:15-16 | Lists every stored blog exactly once, ordered by `createdAt` descending. |
| BlogListing.OrDefault | backend/routes/blogs.js:11-12 | The parsed query or the default: a missing (NaN) or zero query gives the default, any other number is kept, and with a positive default a non-negative query gives at least 1. |
| BlogListing.CeilDiv | backend/routes/blogs.js:25 | `totalPages` is the ceiling of total over limit: the least page count whose pages hold every blog. |
| BlogListing.Skip | backend/routes/blogs.js:13 | For page and limit of at least 1, the offset `(page - 1) * limit` is not negative, and it is 0 on the first page. |
| BlogListing.Window | backend/routes/blogs.js:17-18 | The window holds the entries at positions `[skip, skip + limit)` of the sorted list, and at most `limit` of them. |
| BlogListing.ListPage | backend/routes/blogs.js:11-26 | Missing, NaN or 0 page and limit default to 1 and 10. `currentPage` echoes the page, `totalPages` is the ceiling, and the blogs are the window at `(page - 1) * limit`. |
| BlogListing.List | backend/routes/blogs.js:9-27 | The blogs are exactly the window at `(page - 1) * limit` of a newest-first listing of the whole store: at most `limit` of them, each stored under its id, none twice. The defaults apply. |
| BlogListing.WindowOfRecencyOrder | backend/routes/blogs.js:15-19 | Any window of the newest-first order holds stored blogs under their own ids, none twice, newest first. |
| BlogListing.EveryBlogOnItsPage | backend/routes/blogs.js:13-25 | The blog at position `i` is item `i % limit` of page `i / limit + 1`, and that page is within `totalPages`. |
| BlogListing.FifteenBlogsTwoPages | backend/routes/blogs.js:11-25 | With fifteen blogs and the default limit, page 1 has ten, page 2 has the other five, and there are two pages. |
| BlogApi.Route | backend/routes/blogs.js:58 | A request `protect` rejects never reaches the handler: its status and error are the answer and the store is unchanged. A request it passes is handled as the attached user. |
| BlogApi.Serve | backend/routes/blogs.js:80 | Without a token the answer is 401 "Not authorized to access this route" with the store unchanged. The store changes only when the token's subject was found. A request `protect` passes is handled as that user. |
| BlogApi.SessionGate | backend/middleware/auth.js:9-35 | For a `Bearer` header carrying a token issued at `t` to a stored user, `protect` proceeds with that user's public view iff `now < t + 86400`, and answers 401 "Not authorized to access this route" otherwise. |
| BlogApi.NoTokenNoChange | backend/middleware/auth.js:14-16 | Without a usable token every protected blog request is answered 401 and the store is unchanged, even for a blog that does not exist. |
| BlogApi.CreatedBlogAuthoredByTokenSubject | backend/routes/blogs.js:62-66 | A blog created through the API is authored by the user the token names, and that user was found. |
| BlogApi.RegisterThenCreate | backend/routes/blogs.js:58-70 | With the token from registering, creating a blog within the day succeeds, and the registered user is its author. |
| Pagination.PageNumbers | frontend/src/components/Pagination.js:3-29 | The widget renders nothing iff there is at most one page. Otherwise the list holds exactly the entries the loop pushed, none of them twice. When pages are hidden left of the current page, the one '...' sits before `current - 1` and none follows `current + 1`; when they are hidden only on the right, the '...' follows `current + 1`. |
| Pagination.CandidatesNumbers | frontend/src/components/Pagination.js:12-18 | The loop pushes number `p` iff `p` is within `[1, total]` and is the first page, the last page, or next to the current page. |
| Pagination.CandidatesOrdered | frontend/src/components/Pagination.js:12-25 | The pushed numbers lie in `[1, total]` and increase strictly, and there is at most one entry per position. |
| Pagination.CandidatesEllipses | frontend/src/components/Pagination.js:19-24 | The loop pushes one '...' for each of the positions `current - 2` (when `current > 3`) and `current + 2` (when `current < total - 2`) that is in range and shows no number. |
| Pagination.FirstOccurrencesMembers | frontend/src/components/Pagination.js:28 | The first-occurrence filter keeps exactly the elements of its input and never lengthens it. |
| Pagination.FirstOccurrencesNoDuplicates | frontend/src/components/Pagination.js:28 | The filter's output has no element twice. |
| Pagination.FirstOccurrencesIncreasing | frontend/src/components/Pagination.js:28 | The filter keeps strictly increasing numbers strictly increasing. |
| Pagination.FirstOccurrencesKeepOrder | frontend/src/components/Pagination.js:28 | The filter keeps the input's order: an element whose position comes before every occurrence of another is listed before it. |
| Pagination.FilterKeepsEarlyEllipsis | frontend/src/components/Pagination.js:28 | A '...' pushed before the number `p` is kept before `p`, and then no '...' is listed after any larger number. |
| Pagination.LeftEllipsisKept | frontend/src/components/Pagination.js:12-28 | When position `current - 2` takes '...', the filtered list shows it before `current - 1` and shows no '...' after `current + 1`. |
| Pagination.RightEllipsisKept | frontend/src/components/Pagination.js:12-28 | When only position `current + 2` takes '...', the filtered list shows it after `current + 1`. |
| Pagination.PageNumbersShape | frontend/src/components/Pagination.js:5-28 | For more than one page: a number is listed iff it is 1, the total, or next to the current page within `[1, total]`. Numbers increase strictly, no entry repeats, there is at most one '...' and at most `total` entries. That '...' sits before `current - 1` when position `current - 2` takes one, and then never after `current + 1`; otherwise it sits after `current + 1` when position `current + 2` takes one. |
| Pagination.AtMostOnce | frontend/src/components/Pagination.js:28 | A list without duplicates holds any element at most once. |
| Pagination.PreviousEnabledIffPreviousListed | frontend/src/components/Pagination.js:35-39 | Previous is enabled exactly when the page before the current one is listed as a number. |
| Pagination.NextEnabledIffNextListed | frontend/src/components/Pagination.js:62-66 | Next is enabled exactly when the page after the current one is listed as a number. |
| Pagination.NavigationStaysInRange | frontend/src/components/Pagination.js:35-66 | Previous is enabled iff page `current - 1` exists, and Next iff page `current + 1` exists. |
| Pagination.SecondEllipsisDropped | frontend/src/components/Pagination.js:12-28 | On page 5 of 10 the list is `1 ... 4 5 6 10`, with no '...' after 6. |
| Pagination.FilterKeepsOneOfTwoEllipses | frontend/src/components/Pagination.js:19-28 | When both '...' positions apply, the loop pushes two '...' and the filter keeps one. |
| Pagination.CandidatesSplit | frontend/src/components/Pagination.js:12-25 | The loop's entries up to `n` are those up to `m`, followed by those it pushes after `m`. |
| Pagination.PageNumbersIntendedShape | frontend/src/components/Pagination.js:11-25 | Without the filter the list has the same numbers, strictly increasing, and one '...' per applicable position. That '...' is placed before `current - 1` and after `current + 1` respectively. |
| BlogCard.Truncate | frontend/src/components/BlogCard.js:12-15 | Content of at most 150 characters is unchanged. Longer content becomes its first 150 characters plus '...'. The result has at most 153 characters. |
| BlogCard.TruncatedIsPrefix | frontend/src/components/BlogCard.js:14 | The preview, less any appended '...', is a prefix of the content. It is empty only for empty content. |
| BlogCard.TruncateIdempotent | frontend/src/components/BlogCard.js:12-15 | Truncating a preview again changes nothing. |
| BlogDetail.Populate | backend/routes/blogs.js:39 | The fetched blog carries the stored title, content and date. Its author is present iff the user record exists, and then carries the stored author id and the record's name. |
| BlogDetail.IsAuthor | frontend/src/pages/BlogDetail.js:84 | False without a logged-in user or without an author. Otherwise it holds iff the two ids are equal. |
| BlogDetail.AuthorLabel | frontend/src/pages/BlogDetail.js:94 | The author's name when there is a non-empty one, otherwise "Unknown". Never empty. |
| BlogDetail.Paragraphs | frontend/src/pages/BlogDetail.js:113 | Paragraphs joined with newlines give back the content. There is one more paragraph than newlines, and none contains a newline. |
| BlogDetail.Render | frontend/src/pages/BlogDetail.js:52-109 | Spinner iff loading; then the error alert iff an error is set; then "not found" iff there is no blog; only then the article. The article's paragraphs are the content's newline split, and Edit/Delete are shown iff `isAuthor`. |
| BlogDetail.Fetched | frontend/src/pages/BlogDetail.js:22-37 | After the fetch, loading is off. It holds the blog on success, and the load-failure message otherwise. |
| BlogDetail.HandleDelete | frontend/src/pages/BlogDetail.js:40-50 | Without confirmation nothing happens. A confirmed delete is the DELETE with the stored token's header, through `protect` and the handler; it navigates to `/blogs` iff that answers 200, and otherwise sets the delete-failure message and leaves the store unchanged. |
| BlogDetail.ControlsMatchOwnership | frontend/src/pages/BlogDetail.js:84-109 | For a stored blog, Edit and Delete are rendered iff neither the PUT nor the DELETE handler would answer 401. |
| BlogDetail.ConfirmedDeleteByAuthor | frontend/src/pages/BlogDetail.js:41-44 | The author's confirmed delete, with a token that has not expired, removes exactly that blog and navigates to the list. |
| BlogDetail.RefusedDeleteShowsAlert | frontend/src/pages/BlogDetail.js:45-47 | With a token that has not expired, a confirmed delete of a missing blog or of another author's blog leaves the store unchanged and renders the delete-failure alert. |
| BlogDetail.ExpiredSessionDeleteShowsAlert | frontend/src/pages/BlogDetail.js:40-50 | A day after login the author still sees Edit and Delete, yet the confirmed delete is refused by `protect` (backend/middleware/auth.js:32-35): the blog stays and the delete-failure alert is rendered. |
| BlogDetail.FailedFetchShowsAlert | frontend/src/pages/BlogDetail.js:28-30 | A failed fetch renders the load-failure alert and never the article. |
| BlogForm.Validate | frontend/src/pages/CreateBlog.js:27-35 | "Please enter a title" iff the title is all white space. Otherwise "Please enter some content" iff the content is. No error iff neither is. |
| BlogForm.Submit | frontend/src/pages/CreateBlog.js:22-39 | A request is sent iff both fields are non-blank. Then the form error is cleared. Otherwise the title message takes priority over the content message. |
| BlogForm.SubmitCreate | frontend/src/pages/CreateBlog.js:37-39 | A create request carrying the form as typed is sent iff both fields are non-blank. |
| BlogForm.SubmitEdit | frontend/src/pages/EditBlog.js:59-61 | An update of the route's id, with the form as typed, is sent iff both fields are non-blank. |
| BlogForm.SubmitClearsPreviousError | frontend/src/pages/EditBlog.js:46 | What a submit shows and sends does not depend on the previous form error, and a submit that sends nothing shows a message. |
| BlogForm.SameRuleOnBothPages | frontend/src/pages/EditBlog.js:49-57 | The create and edit pages accept and reject the same forms with the same messages. |
| BlogForm.FailureMessage | frontend/src/pages/CreateBlog.js:43 | A non-empty server `error` string is shown as is, otherwise the fallback. The message is never empty when the fallback is not. |
| BlogForm.EditRound | frontend/src/pages/EditBlog.js:44-69 | An invalid form leaves the store unchanged and shows the validation message. A valid form is the PUT with the stored token's header, through `protect` and the handler: on 200 it navigates to the blog, otherwise it shows the server's error or the fallback. |
| BlogForm.CreateRound | frontend/src/pages/CreateBlog.js:22-47 | An invalid form leaves the store unchanged and shows the validation message. A valid form is the POST with the stored token's header, through `protect` and the handler: on 201 it navigates to the new blog, otherwise it shows the server's error or the fallback. |
| BlogForm.NonAuthorEditRefused | frontend/src/pages/EditBlog.js:61-65 | A valid edit by a signed-in user other than the author, with a token that has not expired, shows "User not authorized" and leaves the store unchanged. |
| BlogForm.AuthorEditStoresFormAsTyped | frontend/src/pages/EditBlog.js:61-62 | The author's valid edit, with a token that has not expired, stores the title and content untrimmed, changes no other blog, and returns to the blog. |
| BlogForm.ExpiredSessionSubmitRefused | frontend/src/pages/EditBlog.js:59-65 | Once the token has expired, a valid edit or create, even by the author, shows "Not authorized to access this route" and leaves the store unchanged. |
| BlogForm.BlankFormNeverStored | frontend/src/pages/CreateBlog.js:27-35 | A form with a blank field never changes the store, whatever the header, and always shows a validation message. |

## Left out

- MongoDB and Mongoose I/O. The store is a map. The ObjectId cast is the predicate `isObjectId`, and a refused id takes the 404 path.
- `populate`. Only the author reference the detail page reads is modelled (`BlogDetail.Populate`).
- The 500 branches of `save` and `deleteOne` failures, the list route's catch, and `console.error`. The one 500 kept is an insert under an id already in the store (`Blogs.Create`).
- JWT signing, signature checking and bcrypt. These are oracles; the model contains no cryptography. The User model is not part of this model, so `comparePassword` is the `compare` oracle.
- `User.findById(decoded.id)` throwing, for instance on a failed cast of a malformed id. It is the `LookupFailed` outcome of the lookup oracle, answered with 401 as the catch does.
- The registration race between `findOne` and `save`. It is concurrency, and nothing in the source resolves it.
- `parseInt` on strings. The query arrives as `Option<int>`, with `None` for NaN.
- BlogListing.List: requires page and limit of at least 1 after the defaults apply. The source does not define what the store does with a negative `skip` or `limit`.
- `formatDate` and `toLocaleDateString`, which are locale formatting.
- React state, effects, navigation and markup, beyond the render choice and the submit effects modelled above. `isSubmitting` only disables the button.
- Lengths count `char`s, not the UTF-16 code units JavaScript counts (`BlogCard.Truncate`, `Strings.Trim`).
- The client's axios/`localStorage` wrapper. Only its `Bearer ` header format is used, as the partner of token extraction.
- Server setup, routing, `PrivateRoute`, the home page and the list page. These are wiring or presentation only.

## Findings

| source | as written | input that shows it | evidently intended | confidence | as-written member | corrected member |
|---|---|---|---|---|---|---|
| frontend/src/components/Pagination.js:28 | The "remove duplicates" filter compares each entry with every earlier one, so the second '...' pushed at `current + 2` counts as a duplicate of the first and is dropped. | `currentPage = 5`, `totalPages = 10` gives `1 ... 4 5 6 10`: nothing marks that pages 7 to 9 are hidden. In general, whenever position `current - 2` takes '...', no '...' is listed after `current + 1`. | `1 ... 4 5 6 ... 10`. The loop never pushes a number twice, so the filter is only needed for numbers, and each side with hidden pages keeps its '...'. | not executed | Pagination.SecondEllipsisDropped | Pagination.PageNumbersIntendedShape |

=== FILE: accounts.dfy ===
/** The HTTP status codes the API answers with. */
module Http {
  const OK := 200
  const Created := 201
  const BadRequest := 400
  const Unauthorized := 401
  const NotFound := 404
  const ServerError := 500
}

/**
 Users and the bearer tokens issued to them. Signing and checking a token's signature are
 cryptography and stay outside the model: `sign` and `decode` are oracles passed in by the caller,
 and only the expiry check that `jwt.verify` performs on the decoded claims is modelled.
 */
module Accounts {
  import opened Base

  type UserId = string
  type Email = string

  /** A stored user. `passwordHash` is whatever the store's password hook produced; it is never sent out. */
  datatype User = User(id: UserId, name: string, email: Email, passwordHash: string)

  /** The public user view `{id, name, email}`: it has no password field at all. */
  datatype PublicUser = PublicUser(id: UserId, name: string, email: Email)

  function View(u: User): PublicUser {
    PublicUser(u.id, u.name, u.email)
  }

  /** `expiresIn: '1d'`, in the seconds `exp` is counted in. */
  const OneDay: int := 86400

  /** The payload of a token: the user id, when it was issued and when it expires. */
  datatype Claims = Claims(id: UserId, iat: int, exp: int)

  /** The claims `jwt.sign({ id }, secret, { expiresIn: '1d' })` puts into a token issued at `now`. */
  function Issue(id: UserId, now: int): (c: Claims)
    ensures c.id == id && c.iat == now
    ensures c.exp - c.iat == OneDay
  {
    Claims(id, now, now + OneDay)
  }

  /**
   `jwt.verify`: the oracle `decode` checks signature and format; a token whose `exp` has been
   reached (`now >= exp`) is rejected as expired. Yields the user id carried by the token.
   */
  function Verify(decode: string -> Option<Claims>, token: string, now: int): (id: Option<UserId>)
    ensures id.Some? <==> decode(token).Some? && now < decode(token).value.exp
    ensures id.Some? ==> id.value == decode(token).value.id
  {
    match decode(token)
    case None => None
    case Some(c) => if now < c.exp then Some(c.id) else None
  }

  /** A token issued at `t` verifies to its user id strictly before `t` plus one day and fails from then on. */
  lemma TokenLifetime(decode: string -> Option<Claims>, sign: Claims -> string, id: UserId, t: int, now: int)
    requires decode(sign(Issue(id, t))) == Some(Issue(id, t))
    ensures Verify(decode, sign(Issue(id, t)), now) == (if now < t + OneDay then Some(id) else None)
  {
  }
}

=== FILE: auth_routes.dfy ===
/**
 The `/register` and `/login` handlers over the user collection, keyed by e-mail as `User.findOne({ email })`
 looks users up. Password hashing (`hash`), its comparison (`compare`, bcrypt's `comparePassword`) and
 token signing (`sign`) are oracles; the store assigns the new user's id (`newId`) and the clock gives `now`.
 */
module AuthRoutes {
  import opened Base
  import opened Http
  import opened Accounts
  import Middleware

  type Users = map<Email, User>

  const UserExistsMessage := "User already exists"
  const InvalidCredentialsMessage := "Invalid credentials"

  /** A response body: `{token, user}` on success, `{error}` otherwise. */
  datatype Reply = Session(token: string, user: PublicUser) | Error(error: string)

  /** A response, and the user collection after the request. */
  datatype Outcome = Outcome(status: int, reply: Reply, users: Users)

  /** Every user is filed under its own e-mail address. */
  ghost predicate KeyedByEmail(users: Users) {
    forall e :: e in users ==> users[e].email == e
  }

  /** No two users share an id. */
  ghost predicate UniqueIds(users: Users) {
    forall e, f :: e in users && f in users && e != f ==> users[e].id != users[f].id
  }

  /** `newId` is not the id of any stored user. */
  ghost predicate FreshId(users: Users, newId: UserId) {
    forall e :: e in users ==> users[e].id != newId
  }

  /**
   `POST /register`: a taken e-mail gives 400 and changes nothing; otherwise exactly one user is
   added and 201 returns a token for the new id with the public view of the new user.
   */
  function Register(users: Users, name: string, email: Email, password: string, newId: UserId, now: int,
                    hash: string -> string, sign: Claims -> string): (r: Outcome)
    ensures email in users ==> r == Outcome(BadRequest, Error(UserExistsMessage), users)
    ensures email !in users ==>
      && r.status == Created
      && r.users.Keys == users.Keys + {email}
      && |r.users| == |users| + 1
      && (forall e :: e in users ==> r.users[e] == users[e])
      && r.users[email].id == newId && r.users[email].name == name && r.users[email].email == email
      && r.reply == Session(sign(Issue(newId, now)), View(r.users[email]))
  {
    if email in users then
      Outcome(BadRequest, Error(UserExistsMessage), users)
    else
      var user := User(newId, name, email, hash(password));
      Outcome(Created, Session(sign(Issue(user.id, now)), View(user)), users[email := user])
  }

  /**
   `POST /login`: an unknown e-mail and a wrong password both give the same 400; otherwise 200 with
   a token for the stored user's id and that user's public view. Logging in changes no user.
   */
  function Login(users: Users, email: Email, password: string, now: int,
                 compare: (string, string) -> bool, sign: Claims -> string): (r: Outcome)
    ensures r.users == users
    ensures r.status == OK <==> email in users && compare(users[email].passwordHash, password)
    ensures r.status != OK ==> r == Outcome(BadRequest, Error(InvalidCredentialsMessage), users)
    ensures r.status == OK ==> r.reply == Session(sign(Issue(users[email].id, now)), View(users[email]))
  {
    if email !in users then
      Outcome(BadRequest, Error(InvalidCredentialsMessage), users)
    else
      var user := users[email];
      if !compare(user.passwordHash, password) then
        Outcome(BadRequest, Error(InvalidCredentialsMessage), users)
      else
        Outcome(OK, Session(sign(Issue(user.id, now)), View(user)), users)
  }

  /** Register keeps the collection keyed by e-mail, and keeps ids unique when the store's new id is fresh. */
  lemma RegisterKeepsInvariants(users: Users, name: string, email: Email, password: string, newId: UserId, now: int,
                                hash: string -> string, sign: Claims -> string)
    requires KeyedByEmail(users) && UniqueIds(users) && FreshId(users, newId)
    ensures KeyedByEmail(Register(users, name, email, password, newId, now, hash, sign).users)
    ensures UniqueIds(Register(users, name, email, password, newId, now, hash, sign).users)
  {
  }

  /** Once an e-mail is registered, registering it again fails and leaves the users alone. */
  lemma RegisterTwiceFails(users: Users, name: string, email: Email, password: string, newId: UserId, now: int,
                           name2: string, password2: string, newId2: UserId, now2: int,
                           hash: string -> string, sign: Claims -> string)
    ensures var first := Register(users, name, email, password, newId, now, hash, sign);
            var second := Register(first.users, name2, email, password2, newId2, now2, hash, sign);
            second.status == BadRequest && second.reply == Error(UserExistsMessage) && second.users == first.users
  {
  }

  /** An unknown e-mail and a wrong password cannot be told apart by the response. */
  lemma LoginFailuresIndistinguishable(unknown: Users, known: Users, email: Email, password: string, now: int,
                                       compare: (string, string) -> bool, sign: Claims -> string)
    requires email !in unknown
    requires email in known && !compare(known[email].passwordHash, password)
    ensures Login(unknown, email, password, now, compare, sign).status == Login(known, email, password, now, compare, sign).status
    ensures Login(unknown, email, password, now, compare, sign).reply == Login(known, email, password, now, compare, sign).reply
  {
  }

  /**
   After registering, logging in with the same e-mail and password succeeds and yields the same
   public view, provided the password check accepts what the hash made of that password.
   */
  lemma RegisterThenLogin(users: Users, name: string, email: Email, password: string, newId: UserId, now: int, later: int,
                          hash: string -> string, compare: (string, string) -> bool, sign: Claims -> string)
    requires email !in users
    requires compare(hash(password), password)
    ensures var reg := Register(users, name, email, password, newId, now, hash, sign);
            var log := Login(reg.users, email, password, later, compare, sign);
            log.status == OK && log.reply.user == reg.reply.user && log.reply.token == sign(Issue(newId, later))
  {
  }

  /**
   A token handed out by login authenticates its holder through `protect` until one day after the
   login, and is refused with 401 from then on — provided the oracles agree: `decode` undoes `sign`,
   signed tokens are non-empty and space-free, and the id lookup finds the stored users.
   */
  lemma LoginTokenAuthenticates(users: Users, email: Email, password: string, now: int, later: int,
                                compare: (string, string) -> bool, sign: Claims -> string,
                                decode: string -> Option<Claims>, findById: UserId -> Middleware.Lookup)
    requires email in users && compare(users[email].passwordHash, password)
    requires decode(sign(Issue(users[email].id, now))) == Some(Issue(users[email].id, now))
    requires sign(Issue(users[email].id, now)) != "" && ' ' !in sign(Issue(users[email].id, now))
    requires findById(users[email].id) == Middleware.Found(users[email])
    ensures var r := Login(users, email, password, now, compare, sign);
            var gate := Middleware.Protect(Some(Middleware.BearerHeader(r.reply.token)), decode, later, findById);
            && (later < now + OneDay ==> gate == Middleware.Proceed(r.reply.user))
            && (later >= now + OneDay ==> gate == Middleware.Reject(Unauthorized, Middleware.NotAuthorizedMessage))
  {
    Middleware.BearerRoundTrip(sign(Issue(users[email].id, now)));
  }
}

=== FILE: blog_api.dfy ===
/**
 The protected blog routes: `router.post/put/delete(..., protect, handler)`. `protect` runs first;
 the handler sees the store only when it passed the request on, with the attached user's id as caller.
 */
module BlogApi {
  import opened Base
  import opened Http
  import opened Accounts
  import opened Blogs
  import Middleware
  import AuthRoutes

  /** A protected route: a rejection by `protect` is the response, otherwise the handler runs for the attached user. */
  function Route(store: Store, gate: Middleware.Gate, req: Request, isObjectId: BlogId -> bool): (o: Outcome)
    ensures gate.Reject? ==> o.status == gate.status && o.reply == Error(gate.error) && o.store == store
    ensures gate.Proceed? ==> o == Handle(store, gate.user.id, req, isObjectId)
  {
    match gate
    case Reject(status, error) => Outcome(status, Error(error), store)
    case Proceed(user) => Handle(store, user.id, req, isObjectId)
  }

  /** The full request: the header goes through `protect`, then the route. */
  function Serve(store: Store, header: Option<string>, decode: string -> Option<Claims>, now: int,
                 findById: UserId -> Middleware.Lookup, req: Request, isObjectId: BlogId -> bool): (o: Outcome)
    ensures Middleware.ExtractToken(header).None? ==>
      o == Outcome(Unauthorized, Error(Middleware.NotAuthorizedMessage), store)
    ensures o.store != store ==>
      && Middleware.Subject(header, decode, now).Some?
      && findById(Middleware.Subject(header, decode, now).value).Found?
    ensures Middleware.Protect(header, decode, now, findById).Proceed? ==>
      o == Handle(store, Middleware.Protect(header, decode, now, findById).user.id, req, isObjectId)
  {
    Route(store, Middleware.Protect(header, decode, now, findById), req, isObjectId)
  }

  /**
   The client holds the bearer token `token` in `header`; the token decodes to the claims issued
   for user `u` at time `t`, and the id lookup finds `u` — the state right after register or login.
   */
  ghost predicate BearerSession(header: Option<string>, decode: string -> Option<Claims>,
                                findById: UserId -> Middleware.Lookup, token: string, u: User, t: int)
  {
    && header == Some(Middleware.BearerHeader(token))
    && token != "" && ' ' !in token
    && decode(token) == Some(Issue(u.id, t))
    && findById(u.id) == Middleware.Found(u)
  }

  /**
   A session's requests pass `protect` as its user strictly before one day after the token was
   issued, and are refused with 401 from then on.
   */
  lemma SessionGate(header: Option<string>, decode: string -> Option<Claims>, now: int,
                    findById: UserId -> Middleware.Lookup, token: string, u: User, t: int)
    requires BearerSession(header, decode, findById, token, u, t)
    ensures now < t + OneDay ==> Middleware.Protect(header, decode, now, findById) == Middleware.Proceed(View(u))
    ensures now >= t + OneDay ==>
      Middleware.Protect(header, decode, now, findById) == Middleware.Reject(Unauthorized, Middleware.NotAuthorizedMessage)
  {
    Middleware.BearerRoundTrip(token);
  }

  /**
   Without a usable bearer token every protected request is answered 401 and changes nothing —
   even one for a blog that does not exist, because `protect` runs before the handler's 404 check.
   */
  lemma NoTokenNoChange(store: Store, header: Option<string>, decode: string -> Option<Claims>, now: int,
                        findById: UserId -> Middleware.Lookup, req: Request, isObjectId: BlogId -> bool)
    requires Middleware.ExtractToken(header).None?
    ensures var r := Serve(store, header, decode, now, findById, req, isObjectId);
            r.status == Unauthorized && r.reply == Error(Middleware.NotAuthorizedMessage) && r.store == store
  {
  }

  /**
   A blog created through the API is authored by the user the token names, and that user was found
   by the lookup when the blog was created.
   */
  lemma CreatedBlogAuthoredByTokenSubject(store: Store, header: Option<string>, decode: string -> Option<Claims>, now: int,
                                          findById: UserId -> Middleware.Lookup, title: string, content: string,
                                          newId: BlogId, isObjectId: BlogId -> bool)
    requires Middleware.FindsById(findById)
    requires Serve(store, header, decode, now, findById, CreateRequest(title, content, newId, now), isObjectId).status == Created
    ensures var r := Serve(store, header, decode, now, findById, CreateRequest(title, content, newId, now), isObjectId);
            var subject := Middleware.Subject(header, decode, now);
            && subject.Some?
            && findById(subject.value).Found?
            && newId in r.store && r.store[newId].author == subject.value
  {
  }

  /**
   End to end: a user registers, and with the token the registration returned creates a blog within
   the day; the blog is stored under the new id with the registered user as its author. The oracles
   must agree: `decode` undoes `sign`, signed tokens are non-empty and space-free, and the id lookup
   finds the registered user.
   */
  lemma RegisterThenCreate(users: AuthRoutes.Users, name: string, email: Email, password: string, userId: UserId, t: int,
                           hash: string -> string, sign: Claims -> string, decode: string -> Option<Claims>,
                           findById: UserId -> Middleware.Lookup,
                           store: Store, later: int, title: string, content: string, newId: BlogId, isObjectId: BlogId -> bool)
    requires email !in users && newId !in store
    requires decode(sign(Issue(userId, t))) == Some(Issue(userId, t))
    requires sign(Issue(userId, t)) != "" && ' ' !in sign(Issue(userId, t))
    requires findById(userId) == Middleware.Found(User(userId, name, email, hash(password)))
    requires t <= later < t + OneDay
    ensures var reg := AuthRoutes.Register(users, name, email, password, userId, t, hash, sign);
            var r := Serve(store, Some(Middleware.BearerHeader(reg.reply.token)), decode, later, findById,
                           CreateRequest(title, content, newId, later), isObjectId);
            && r.status == Created
            && r.store[newId] == Blog(title, content, reg.users[email].id, later)
  {
    Middleware.BearerRoundTrip(sign(Issue(userId, t)));
  }
}

=== FILE: blog_card.dfy ===
/**
 The preview a blog card shows of a post's content: at most 150 characters, with '...' appended
 when anything was cut off. Lengths count `char`s.
 */
module BlogCard {
  const PreviewLength := 150
  const Marker := "..."

  /** `truncateContent`. */
  function Truncate(content: string): (r: string)
    ensures |r| <= PreviewLength + |Marker|
    ensures |content| <= PreviewLength ==> r == content
    ensures |content| > PreviewLength ==>
      && |r| == PreviewLength + |Marker|
      && r[..PreviewLength] == content[..PreviewLength]
      && r[PreviewLength..] == Marker
  {
    if |content| <= PreviewLength then content else content[..PreviewLength] + Marker
  }

  /**
   The preview less any appended marker is a prefix of the content — the whole content, or its
   first 150 characters when it is longer — and it is empty only for empty content.
   */
  lemma TruncatedIsPrefix(content: string)
    ensures var r := Truncate(content);
            && (r == content || (|content| > PreviewLength && r == content[..PreviewLength] + Marker))
            && (r == "" <==> content == "")
  {
  }

  /** Truncating a preview again changes nothing. */
  lemma TruncateIdempotent(content: string)
    ensures Truncate(Truncate(content)) == Truncate(content)
  {
    var r := Truncate(content);
    if |content| > PreviewLength {
      assert r == r[..PreviewLength] + r[PreviewLength..];
    }
  }
}

=== FILE: blog_detail.dfy ===
/**
 The blog detail page: who counts as the author, the author label, the paragraphs the content is
 shown as, which of the page's four states is rendered, and the delete button's effect. The blog
 arrives as the GET handler returns it with the author populated to `{_id, name}` — or to nothing,
 when the author's user record is gone.
 */
module BlogDetail {
  import opened Base
  import opened Strings
  import opened Http
  import opened Accounts
  import Blogs
  import Middleware
  import BlogApi

  const UnknownAuthor := "Unknown"
  const LoadFailedMessage := "Failed to load blog. It may not exist or has been removed."
  const DeleteFailedMessage := "Failed to delete blog. Please try again."
  const BlogsPath := "/blogs"

  /** A populated author: the user's id and, when the record has one, the name. */
  datatype AuthorRef = AuthorRef(id: UserId, name: Option<string>)

  /** A blog as the page receives it. */
  datatype ShownBlog = ShownBlog(id: Blogs.BlogId, title: string, content: string, author: Option<AuthorRef>, createdAt: int)

  /** The blog a successful GET returns, its author populated when the user record exists (with the name, when it has one). */
  function Populate(id: Blogs.BlogId, blog: Blogs.Blog, authorRecord: Option<Option<string>>): (b: ShownBlog)
    ensures b.id == id && b.title == blog.title && b.content == blog.content && b.createdAt == blog.createdAt
    ensures b.author.Some? <==> authorRecord.Some?
    ensures b.author.Some? ==> b.author.value.id == blog.author && b.author.value.name == authorRecord.value
  {
    ShownBlog(id, blog.title, blog.content,
              if authorRecord.Some? then Some(AuthorRef(blog.author, authorRecord.value)) else None,
              blog.createdAt)
  }

  /** `isAuthor`: someone is logged in, the blog has an author, and the two ids are the same. */
  function IsAuthor(user: Option<PublicUser>, author: Option<AuthorRef>): (b: bool)
    ensures user.None? || author.None? ==> !b
    ensures user.Some? && author.Some? ==> (b <==> user.value.id == author.value.id)
  {
    user.Some? && author.Some? && user.value.id == author.value.id
  }

  /** `blog.author?.name || 'Unknown'`: the name when there is a non-empty one, "Unknown" otherwise. */
  function AuthorLabel(author: Option<AuthorRef>): (byline: string)
    ensures byline != ""
    ensures author.Some? && author.value.name.Some? && author.value.name.value != "" ==> byline == author.value.name.value
    ensures author.None? || author.value.name.None? || author.value.name.value == "" ==> byline == UnknownAuthor
  {
    if author.Some? && author.value.name.Some? && author.value.name.value != "" then author.value.name.value
    else UnknownAuthor
  }

  /** `content.split('\n')`: the paragraphs, none holding a newline, that joined with newlines give back the content. */
  function Paragraphs(content: string): (ps: seq<string>)
    ensures Join(ps, '\n') == content
    ensures |ps| == Count(content, '\n') + 1
    ensures forall i :: 0 <= i < |ps| ==> '\n' !in ps[i]
  {
    JoinSplit(content, '\n');
    Split(content, '\n')
  }

  /** What the page shows. */
  datatype View =
    | Spinner
    | ErrorAlert(message: string)
    | NotFoundNotice
    | Article(title: string, byline: string, paragraphs: seq<string>, controls: bool)

  /** The component's state: still loading, the error message (empty when none), the blog (when fetched). */
  datatype PageState = PageState(loading: bool, error: string, blog: Option<ShownBlog>)

  /** The state before the fetch has finished. */
  const Initial := PageState(true, "", None)

  /**
   The render: the spinner while loading, then an alert for any error, then "Blog not found." when
   there is no blog, and only then the article — with Edit and Delete when the viewer is the author.
   */
  function Render(s: PageState, user: Option<PublicUser>): (v: View)
    ensures s.loading <==> v == Spinner
    ensures v.ErrorAlert? <==> !s.loading && s.error != ""
    ensures v.ErrorAlert? ==> v.message == s.error
    ensures v == NotFoundNotice <==> !s.loading && s.error == "" && s.blog.None?
    ensures v.Article? <==> !s.loading && s.error == "" && s.blog.Some?
    ensures v.Article? ==>
      && v.title == s.blog.value.title
      && v.byline == AuthorLabel(s.blog.value.author)
      && v.paragraphs == Paragraphs(s.blog.value.content)
      && Join(v.paragraphs, '\n') == s.blog.value.content
      && (v.controls <==> IsAuthor(user, s.blog.value.author))
  {
    if s.loading then Spinner
    else if s.error != "" then ErrorAlert(s.error)
    else if s.blog.None? then NotFoundNotice
    else
      var b := s.blog.value;
      Article(b.title, AuthorLabel(b.author), Paragraphs(b.content), IsAuthor(user, b.author))
  }

  /** The fetch settles: the blog when the GET answered 200, the load-failure message otherwise; loading ends either way. */
  function Fetched(s: PageState, response: Option<ShownBlog>): (s': PageState)
    ensures !s'.loading
    ensures response.Some? ==> s'.blog == response && s'.error == s.error
    ensures response.None? ==> s'.error == LoadFailedMessage && s'.blog == s.blog
  {
    if response.Some? then PageState(false, s.error, response) else PageState(false, LoadFailedMessage, s.blog)
  }

  /** The effect of the Delete button: no request, a request that succeeded and navigates, or one that failed. */
  datatype DeleteEffect = Declined | Navigated(path: string) | Failed

  /** The result of clicking Delete: its effect, the page state and the store afterwards. */
  datatype DeleteResult = DeleteResult(effect: DeleteEffect, page: PageState, store: Blogs.Store)

  /**
   `handleDelete`: nothing happens unless the user confirms; a confirmed delete is the DELETE
   request with the client's `Authorization` header — `protect` first, then the handler — which
   navigates to the list on success and sets the delete-failure message on any error status.
   */
  function HandleDelete(confirmed: bool, s: PageState, store: Blogs.Store, header: Option<string>,
                        decode: string -> Option<Claims>, now: int, findById: UserId -> Middleware.Lookup,
                        id: Blogs.BlogId, isObjectId: Blogs.BlogId -> bool): (r: DeleteResult)
    ensures !confirmed ==> r == DeleteResult(Declined, s, store)
    ensures confirmed ==>
      r.store == BlogApi.Serve(store, header, decode, now, findById, Blogs.DeleteRequest(id), isObjectId).store
    ensures r.effect.Navigated? <==>
      confirmed && BlogApi.Serve(store, header, decode, now, findById, Blogs.DeleteRequest(id), isObjectId).status == OK
    ensures r.effect.Navigated? ==> r.effect.path == BlogsPath && r.page == s
    ensures r.effect == Failed ==> r.page == s.(error := DeleteFailedMessage) && r.store == store
    ensures confirmed && BlogApi.Serve(store, header, decode, now, findById, Blogs.DeleteRequest(id), isObjectId).status != OK
            ==> r.effect == Failed && r.page == s.(error := DeleteFailedMessage)
  {
    if !confirmed then DeleteResult(Declined, s, store)
    else
      var out := BlogApi.Serve(store, header, decode, now, findById, Blogs.DeleteRequest(id), isObjectId);
      if out.status == OK then DeleteResult(Navigated(BlogsPath), s, out.store)
      else DeleteResult(Failed, s.(error := DeleteFailedMessage), out.store)
  }

  /**
   The page offers Edit and Delete exactly to the user the backend lets update and delete the blog:
   for a stored blog shown with its author, the controls are rendered iff neither handler answers 401.
   */
  lemma ControlsMatchOwnership(store: Blogs.Store, id: Blogs.BlogId, authorRecord: Option<string>, user: PublicUser,
                               isObjectId: Blogs.BlogId -> bool, title: string, content: string)
    requires id in store && isObjectId(id)
    ensures var v := Render(PageState(false, "", Some(Populate(id, store[id], Some(authorRecord)))), Some(user));
            && v.Article?
            && (v.controls <==> Blogs.Update(store, user.id, id, isObjectId, title, content).status != Unauthorized)
            && (v.controls <==> Blogs.Delete(store, user.id, id, isObjectId).status != Unauthorized)
  {
  }

  /**
   When the author confirms within the day their token was issued, the blog is gone from the store,
   every other blog is kept, and the page navigates to the list.
   */
  lemma ConfirmedDeleteByAuthor(s: PageState, store: Blogs.Store, header: Option<string>,
                                decode: string -> Option<Claims>, now: int, findById: UserId -> Middleware.Lookup,
                                token: string, u: User, t: int, id: Blogs.BlogId, isObjectId: Blogs.BlogId -> bool)
    requires BlogApi.BearerSession(header, decode, findById, token, u, t) && now < t + OneDay
    requires id in store && isObjectId(id) && store[id].author == u.id
    ensures var r := HandleDelete(true, s, store, header, decode, now, findById, id, isObjectId);
            && r.effect == Navigated(BlogsPath)
            && r.store.Keys == store.Keys - {id}
            && Blogs.UnchangedExcept(store, r.store, {id})
  {
    BlogApi.SessionGate(header, decode, now, findById, token, u, t);
  }

  /**
   A confirmed delete by a signed-in user who is not the author, or of a blog that is gone, leaves
   the store as it was, and the next render replaces the article with the delete-failure alert.
   */
  lemma RefusedDeleteShowsAlert(s: PageState, store: Blogs.Store, header: Option<string>,
                                decode: string -> Option<Claims>, now: int, findById: UserId -> Middleware.Lookup,
                                token: string, u: User, t: int, id: Blogs.BlogId, isObjectId: Blogs.BlogId -> bool)
    requires !s.loading
    requires BlogApi.BearerSession(header, decode, findById, token, u, t) && now < t + OneDay
    requires id !in store || !isObjectId(id) || store[id].author != u.id
    ensures var r := HandleDelete(true, s, store, header, decode, now, findById, id, isObjectId);
            && r.effect == Failed
            && r.store == store
            && Render(r.page, Some(Accounts.View(u))) == ErrorAlert(DeleteFailedMessage)
  {
    BlogApi.SessionGate(header, decode, now, findById, token, u, t);
  }

  /**
   A session outlives its token: a day after login the stored user still sees Edit and Delete on
   their own blog, but the confirmed DELETE is refused by `protect`, the blog stays, and the page
   shows the delete-failure alert.
   */
  lemma ExpiredSessionDeleteShowsAlert(store: Blogs.Store, header: Option<string>, decode: string -> Option<Claims>,
                                       now: int, findById: UserId -> Middleware.Lookup, token: string, u: User, t: int,
                                       id: Blogs.BlogId, isObjectId: Blogs.BlogId -> bool, authorName: Option<string>)
    requires BlogApi.BearerSession(header, decode, findById, token, u, t) && now >= t + OneDay
    requires id in store && isObjectId(id) && store[id].author == u.id
    ensures var s := PageState(false, "", Some(Populate(id, store[id], Some(authorName))));
            var r := HandleDelete(true, s, store, header, decode, now, findById, id, isObjectId);
            && Render(s, Some(Accounts.View(u))).Article?
            && Render(s, Some(Accounts.View(u))).controls
            && r.effect == Failed
            && r.store == store
            && Render(r.page, Some(Accounts.View(u))) == ErrorAlert(DeleteFailedMessage)
  {
    BlogApi.SessionGate(header, decode, now, findById, token, u, t);
  }

  /** Whoever views it, a page whose fetch failed shows the load-failure alert and never the article. */
  lemma FailedFetchShowsAlert(user: Option<PublicUser>)
    ensures Render(Fetched(Initial, None), user) == ErrorAlert(LoadFailedMessage)
  {
  }
}

=== FILE: blog_form.dfy ===
/**
 The create and edit pages' submit: both clear the previous form error, reject a blank title, then
 a blank content, and only then send the form as typed — a create for the new-blog page, an update
 of the route's blog for the edit page. A failed request shows the server's `error` string, or the
 page's fallback message when the response carries none. "Blank" is empty after JavaScript's `trim`.
 */
module BlogForm {
  import opened Base
  import opened Strings
  import opened Http
  import opened Accounts
  import Blogs
  import Middleware
  import BlogApi

  const TitleMissingMessage := "Please enter a title"
  const ContentMissingMessage := "Please enter some content"
  const CreateFailedMessage := "Failed to create blog. Please try again."
  const UpdateFailedMessage := "Failed to update blog. Please try again."

  /** The form's two fields, as typed. */
  datatype Form = Form(title: string, content: string)

  /** The validation in `handleSubmit`: the title is checked first, then the content. */
  function Validate(f: Form): (err: Option<string>)
    ensures err == Some(TitleMissingMessage) <==> AllWhitespace(f.title)
    ensures err == Some(ContentMissingMessage) <==> !AllWhitespace(f.title) && AllWhitespace(f.content)
    ensures err.None? <==> !AllWhitespace(f.title) && !AllWhitespace(f.content)
  {
    TrimEmptyIffBlank(f.title);
    TrimEmptyIffBlank(f.content);
    if Trim(f.title) == "" then Some(TitleMissingMessage)
    else if Trim(f.content) == "" then Some(ContentMissingMessage)
    else None
  }

  /** The request a submit sends: `createBlog(formData)` or `updateBlog(id, formData)`. */
  datatype Outgoing = CreateBlog(form: Form) | UpdateBlog(id: Blogs.BlogId, form: Form)

  /** The form error after the submit's synchronous part, and the request it sends, if any. */
  datatype Submission = Submission(formError: string, sent: Option<Outgoing>)

  /** The synchronous part of a submit: clear the error, validate, and send `request` when the form passes. */
  function Submit(previousError: string, f: Form, request: Outgoing): (s: Submission)
    ensures s.sent.Some? <==> !AllWhitespace(f.title) && !AllWhitespace(f.content)
    ensures s.sent.Some? ==> s.sent.value == request && s.formError == ""
    ensures AllWhitespace(f.title) ==> s.formError == TitleMissingMessage
    ensures !AllWhitespace(f.title) && AllWhitespace(f.content) ==> s.formError == ContentMissingMessage
  {
    var err := Validate(f);
    if err.Some? then Submission(err.value, None) else Submission("", Some(request))
  }

  /** The create page's submit: the form goes out exactly as typed, untrimmed. */
  function SubmitCreate(previousError: string, f: Form): (s: Submission)
    ensures s.sent.Some? <==> !AllWhitespace(f.title) && !AllWhitespace(f.content)
    ensures s.sent.Some? ==> s.sent.value == CreateBlog(f)
  {
    Submit(previousError, f, CreateBlog(f))
  }

  /** The edit page's submit: an update of the route's blog id with the form as typed. */
  function SubmitEdit(previousError: string, id: Blogs.BlogId, f: Form): (s: Submission)
    ensures s.sent.Some? <==> !AllWhitespace(f.title) && !AllWhitespace(f.content)
    ensures s.sent.Some? ==> s.sent.value == UpdateBlog(id, f)
  {
    Submit(previousError, f, UpdateBlog(id, f))
  }

  /** The previous error never shows through: a submit's outcome does not depend on it. */
  lemma SubmitClearsPreviousError(e1: string, e2: string, id: Blogs.BlogId, f: Form)
    ensures SubmitCreate(e1, f) == SubmitCreate(e2, f)
    ensures SubmitEdit(e1, id, f) == SubmitEdit(e2, id, f)
    ensures SubmitCreate(e1, f).sent.None? ==> SubmitCreate(e1, f).formError != ""
  {
  }

  /** The create and edit pages apply one rule: the same form passes or fails on both, with the same message. */
  lemma SameRuleOnBothPages(e1: string, e2: string, id: Blogs.BlogId, f: Form)
    ensures SubmitCreate(e1, f).formError == SubmitEdit(e2, id, f).formError
    ensures SubmitCreate(e1, f).sent.Some? <==> SubmitEdit(e2, id, f).sent.Some?
  {
  }

  /** `error.response?.data?.error || fallback`: a non-empty server message, otherwise the fallback. */
  function FailureMessage(serverError: Option<string>, fallback: string): (m: string)
    ensures serverError.Some? && serverError.value != "" ==> m == serverError.value
    ensures serverError.None? || serverError.value == "" ==> m == fallback
    ensures fallback != "" ==> m != ""
  {
    if serverError.Some? && serverError.value != "" then serverError.value else fallback
  }

  /** The `error` string a failed response carries, if any. */
  function ErrorOf(reply: Blogs.Reply): Option<string> {
    if reply.Error? then Some(reply.error) else None
  }

  /** A whole submit against the store: the form error shown afterwards, where the page navigates, and the store. */
  datatype Round = Round(formError: string, navigateTo: Option<string>, store: Blogs.Store)

  /**
   The edit page's submit with the client's `Authorization` header: an invalid form sends nothing;
   a valid one is the PUT — `protect` first, then the handler — which navigates to the blog on 200
   and shows the failure message on any other status.
   */
  function EditRound(previousError: string, id: Blogs.BlogId, f: Form, store: Blogs.Store, header: Option<string>,
                     decode: string -> Option<Claims>, now: int, findById: UserId -> Middleware.Lookup,
                     isObjectId: Blogs.BlogId -> bool): (r: Round)
    ensures Validate(f).Some? ==> r == Round(Validate(f).value, None, store)
    ensures Validate(f).None? ==>
      var out := BlogApi.Serve(store, header, decode, now, findById, Blogs.UpdateRequest(id, f.title, f.content), isObjectId);
      && r.store == out.store
      && (r.navigateTo.Some? <==> out.status == OK)
      && (r.navigateTo.Some? ==> r.navigateTo.value == "/blogs/" + id && r.formError == "")
      && (r.navigateTo.None? ==> r.formError == FailureMessage(ErrorOf(out.reply), UpdateFailedMessage))
  {
    var s := SubmitEdit(previousError, id, f);
    if s.sent.None? then Round(s.formError, None, store)
    else
      var out := BlogApi.Serve(store, header, decode, now, findById, Blogs.UpdateRequest(id, f.title, f.content), isObjectId);
      if out.status == OK then Round("", Some("/blogs/" + id), out.store)
      else Round(FailureMessage(ErrorOf(out.reply), UpdateFailedMessage), None, out.store)
  }

  /**
   The create page's submit with the client's `Authorization` header: an invalid form sends
   nothing; a valid one is the POST — `protect` first, then the handler — which navigates to the
   new blog on 201 and shows the failure message otherwise.
   */
  function CreateRound(previousError: string, f: Form, store: Blogs.Store, header: Option<string>,
                       decode: string -> Option<Claims>, now: int, findById: UserId -> Middleware.Lookup,
                       newId: Blogs.BlogId, isObjectId: Blogs.BlogId -> bool): (r: Round)
    ensures Validate(f).Some? ==> r == Round(Validate(f).value, None, store)
    ensures Validate(f).None? ==>
      var out := BlogApi.Serve(store, header, decode, now, findById, Blogs.CreateRequest(f.title, f.content, newId, now), isObjectId);
      && r.store == out.store
      && (r.navigateTo.Some? <==> out.status == Created)
      && (r.navigateTo.Some? ==> r.navigateTo.value == "/blogs/" + newId && r.formError == "")
      && (r.navigateTo.None? ==> r.formError == FailureMessage(ErrorOf(out.reply), CreateFailedMessage))
  {
    var s := SubmitCreate(previousError, f);
    if s.sent.None? then Round(s.formError, None, store)
    else
      var out := BlogApi.Serve(store, header, decode, now, findById, Blogs.CreateRequest(f.title, f.content, newId, now), isObjectId);
      if out.status == Created then Round("", Some("/blogs/" + newId), out.store)
      else Round(FailureMessage(ErrorOf(out.reply), CreateFailedMessage), None, out.store)
  }

  /**
   A signed-in user other than the author who submits a valid edit sees the server's
   "User not authorized", and the blog is left as it was.
   */
  lemma NonAuthorEditRefused(previousError: string, id: Blogs.BlogId, f: Form, store: Blogs.Store, header: Option<string>,
                             decode: string -> Option<Claims>, now: int, findById: UserId -> Middleware.Lookup,
                             token: string, u: User, t: int, isObjectId: Blogs.BlogId -> bool)
    requires !AllWhitespace(f.title) && !AllWhitespace(f.content)
    requires BlogApi.BearerSession(header, decode, findById, token, u, t) && now < t + OneDay
    requires id in store && isObjectId(id) && store[id].author != u.id
    ensures EditRound(previousError, id, f, store, header, decode, now, findById, isObjectId)
         == Round(Blogs.NotAuthorMessage, None, store)
  {
    BlogApi.SessionGate(header, decode, now, findById, token, u, t);
  }

  /**
   The author's valid edit within the day the token was issued stores exactly the title and
   content as typed — untrimmed — and leads back to the blog's page.
   */
  lemma AuthorEditStoresFormAsTyped(previousError: string, id: Blogs.BlogId, f: Form, store: Blogs.Store,
                                    header: Option<string>, decode: string -> Option<Claims>, now: int,
                                    findById: UserId -> Middleware.Lookup, token: string, u: User, t: int,
                                    isObjectId: Blogs.BlogId -> bool)
    requires !AllWhitespace(f.title) && !AllWhitespace(f.content)
    requires BlogApi.BearerSession(header, decode, findById, token, u, t) && now < t + OneDay
    requires id in store && isObjectId(id) && store[id].author == u.id
    ensures var r := EditRound(previousError, id, f, store, header, decode, now, findById, isObjectId);
            && r.navigateTo == Some("/blogs/" + id)
            && r.store[id] == store[id].(title := f.title, content := f.content)
            && Blogs.UnchangedExcept(store, r.store, {id})
  {
    BlogApi.SessionGate(header, decode, now, findById, token, u, t);
  }

  /**
   Once the token has expired, a valid edit or create — even by the author — is refused by
   `protect`: the page shows "Not authorized to access this route" and the store is unchanged.
   */
  lemma ExpiredSessionSubmitRefused(previousError: string, id: Blogs.BlogId, f: Form, store: Blogs.Store,
                                    header: Option<string>, decode: string -> Option<Claims>, now: int,
                                    findById: UserId -> Middleware.Lookup, token: string, u: User, t: int,
                                    newId: Blogs.BlogId, isObjectId: Blogs.BlogId -> bool)
    requires !AllWhitespace(f.title) && !AllWhitespace(f.content)
    requires BlogApi.BearerSession(header, decode, findById, token, u, t) && now >= t + OneDay
    ensures EditRound(previousError, id, f, store, header, decode, now, findById, isObjectId)
         == Round(Middleware.NotAuthorizedMessage, None, store)
    ensures CreateRound(previousError, f, store, header, decode, now, findById, newId, isObjectId)
         == Round(Middleware.NotAuthorizedMessage, None, store)
  {
    BlogApi.SessionGate(header, decode, now, findById, token, u, t);
    var refused := Blogs.Outcome(Unauthorized, Blogs.Error(Middleware.NotAuthorizedMessage), store);
    assert BlogApi.Serve(store, header, decode, now, findById, Blogs.UpdateRequest(id, f.title, f.content), isObjectId) == refused;
    assert BlogApi.Serve(store, header, decode, now, findById, Blogs.CreateRequest(f.title, f.content, newId, now), isObjectId) == refused;
  }

  /** A blank field never reaches the store, whatever the previous error and whatever the header. */
  lemma BlankFormNeverStored(previousError: string, id: Blogs.BlogId, f: Form, store: Blogs.Store, header: Option<string>,
                             decode: string -> Option<Claims>, now: int, findById: UserId -> Middleware.Lookup,
                             newId: Blogs.BlogId, isObjectId: Blogs.BlogId -> bool)
    requires AllWhitespace(f.title) || AllWhitespace(f.content)
    ensures EditRound(previousError, id, f, store, header, decode, now, findById, isObjectId).store == store
    ensures CreateRound(previousError, f, store, header, decode, now, findById, newId, isObjectId).store == store
    ensures EditRound(previousError, id, f, store, header, decode, now, findById, isObjectId).formError
         in {TitleMissingMessage, ContentMissingMessage}
  {
  }
}

=== FILE: blog_listing.dfy ===
/**
 `GET /` of the blog API: all blogs newest first, cut into pages by offset/limit arithmetic.
 The query parameters arrive as what `parseInt` made of them: `None` stands for `NaN`.
 */
module BlogListing {
  import opened Base
  import opened Blogs

  const DefaultPage := 1
  const DefaultLimit := 10

  /** One page of the listing: `{blogs, totalPages, currentPage}`. */
  datatype Listing = Listing(blogs: seq<Post>, totalPages: int, currentPage: int)

  /**
   `parseInt(q) || d`: `NaN` and `0` are falsy, so both fall back to the default; any other number
   is kept. With a positive default, a query that is not negative yields at least 1.
   */
  function OrDefault(q: Option<int>, d: int): (v: int)
    ensures q.Some? && q.value != 0 ==> v == q.value
    ensures q.None? || q.value == 0 ==> v == d
    ensures d >= 1 && (q.None? || q.value >= 0) ==> v >= 1
  {
    match q
    case None => d
    case Some(v) => if v == 0 then d else v
  }

  /** Every id of `ids` names a stored blog. */
  ghost predicate AllStored(store: Store, ids: seq<BlogId>) {
    forall i :: 0 <= i < |ids| ==> ids[i] in store
  }

  /** `ids` is ordered by creation time, newest first (`sort({ createdAt: -1 })`); ties in any order. */
  ghost predicate NewestFirst(store: Store, ids: seq<BlogId>)
    requires AllStored(store, ids)
  {
    forall i, j :: 0 <= i < j < |ids| ==> store[ids[i]].createdAt >= store[ids[j]].createdAt
  }

  /** `ids` lists every stored blog exactly once, newest first. */
  ghost predicate IsRecencyOrder(store: Store, ids: seq<BlogId>) {
    && |ids| == |store|
    && (forall k :: k in store <==> k in ids)
    && Distinct(ids)
    && AllStored(store, ids)
    && NewestFirst(store, ids)
  }

  /** Putting a blog no older than any of a newest-first list in front keeps it newest first. */
  lemma ConsNewestFirst(store: Store, x: BlogId, s: seq<BlogId>)
    requires x in store && AllStored(store, s) && NewestFirst(store, s)
    requires forall j :: 0 <= j < |s| ==> store[s[j]].createdAt <= store[x].createdAt
    ensures AllStored(store, [x] + s) && NewestFirst(store, [x] + s)
  {
    var r := [x] + s;
    forall i, j | 0 <= i < j < |r|
      ensures store[r[i]].createdAt >= store[r[j]].createdAt
    {
      assert r[j] == s[j - 1];
      if i > 0 {
        assert r[i] == s[i - 1];
      }
    }
  }

  /** Inserts `k` into a newest-first list in front of the first blog that is not newer than it. */
  function Insert(store: Store, ids: seq<BlogId>, k: BlogId): (r: seq<BlogId>)
    requires k in store && AllStored(store, ids) && NewestFirst(store, ids)
    ensures |r| == |ids| + 1
    ensures forall j :: 0 <= j < |r| ==> r[j] == k || r[j] in ids
    ensures forall x :: x in r <==> x == k || x in ids
    ensures AllStored(store, r) && NewestFirst(store, r)
    ensures k !in ids && Distinct(ids) ==> Distinct(r)
  {
    if |ids| == 0 then [k]
    else if store[k].createdAt >= store[ids[0]].createdAt then
      ConsNewestFirst(store, k, ids);
      [k] + ids
    else
      var tail := Insert(store, ids[1..], k);
      InsertedBelowHead(store, ids, k, tail);
      ConsNewestFirst(store, ids[0], tail);
      assert k !in ids && Distinct(ids) ==> ids[0] !in tail && Distinct(tail) by {
        if k !in ids && Distinct(ids) {
          assert ids[0] !in ids[1..];
          assert Distinct(ids[1..]);
        }
      }
      [ids[0]] + tail
  }

  /** What `k` was inserted into behind the head of `ids` is no newer than that head. */
  lemma InsertedBelowHead(store: Store, ids: seq<BlogId>, k: BlogId, tail: seq<BlogId>)
    requires |ids| > 0 && k in store && AllStored(store, ids) && NewestFirst(store, ids)
    requires store[k].createdAt < store[ids[0]].createdAt
    requires forall j :: 0 <= j < |tail| ==> tail[j] == k || tail[j] in ids[1..]
    ensures AllStored(store, tail)
    ensures forall j :: 0 <= j < |tail| ==> store[tail[j]].createdAt <= store[ids[0]].createdAt
  {
    forall j | 0 <= j < |tail|
      ensures tail[j] in store && store[tail[j]].createdAt <= store[ids[0]].createdAt
    {
      if tail[j] != k {
        var m :| 0 <= m < |ids[1..]| && ids[1..][m] == tail[j];
        assert ids[m + 1] == tail[j];
      }
    }
  }

  /** The order the store's `sort({ createdAt: -1 })` delivers the blogs in. */
  method SortByRecency(store: Store) returns (ids: seq<BlogId>)
    ensures IsRecencyOrder(store, ids)
  {
    ids := [];
    var rest := store.Keys;
    while rest != {}
      invariant rest <= store.Keys
      invariant forall k :: k in store <==> k in rest || k in ids
      invariant forall k :: k in rest ==> k !in ids
      invariant AllStored(store, ids) && NewestFirst(store, ids) && Distinct(ids)
      invariant |ids| == |store.Keys - rest|
      decreases |rest|
    {
      var k :| k in rest;
      assert store.Keys - (rest - {k}) == (store.Keys - rest) + {k};
      ids := Insert(store, ids, k);
      rest := rest - {k};
    }
    assert store.Keys - rest == store.Keys;
  }

  /** `Math.ceil(total / limit)` for a positive limit: the least number of `limit`-sized pages that hold `total` items. */
  function CeilDiv(total: nat, limit: int): (q: int)
    requires limit >= 1
    ensures q >= 0 && (q - 1) * limit < total <= q * limit
  {
    var q := (total + limit - 1) / limit;
    assert q * limit <= total + limit - 1 < (q + 1) * limit;
    q
  }

  /** The offset of a page, `(page - 1) * limit`: never negative, and zero on the first page. */
  function Skip(page: int, limit: int): (skip: int)
    ensures page >= 1 && limit >= 1 ==> skip >= 0
    ensures page == 1 ==> skip == 0
  {
    (page - 1) * limit
  }

  /** How many blogs the window `[skip, skip + limit)` holds out of `total`. */
  function WindowSize(total: nat, skip: int, limit: int): nat
    requires skip >= 0 && limit >= 0
  {
    if skip >= total then 0 else if total - skip < limit then total - skip else limit
  }

  /** The posts at positions `[skip, skip + limit)` of `ids` (`skip(skip).limit(limit)`). */
  function Window(store: Store, ids: seq<BlogId>, skip: int, limit: int): (r: seq<Post>)
    requires skip >= 0 && limit >= 1 && AllStored(store, ids)
    ensures |r| == WindowSize(|ids|, skip, limit) && |r| <= limit
    ensures forall i :: 0 <= i < |r| ==> r[i] == Post(ids[skip + i], store[ids[skip + i]])
  {
    var n := WindowSize(|ids|, skip, limit);
    seq(n, i requires 0 <= i < n => Post(ids[skip + i], store[ids[skip + i]]))
  }

  /** The requested page of an already sorted id list. */
  function ListPage(store: Store, ids: seq<BlogId>, pageQ: Option<int>, limitQ: Option<int>): (r: Listing)
    requires |ids| == |store| && AllStored(store, ids)
    requires OrDefault(pageQ, DefaultPage) >= 1 && OrDefault(limitQ, DefaultLimit) >= 1
    ensures var page := OrDefault(pageQ, DefaultPage);
            var limit := OrDefault(limitQ, DefaultLimit);
            && Skip(page, limit) >= 0
            && r.currentPage == page
            && r.totalPages == CeilDiv(|store|, limit)
            && r.blogs == Window(store, ids, Skip(page, limit), limit)
  {
    var page := OrDefault(pageQ, DefaultPage);
    var limit := OrDefault(limitQ, DefaultLimit);
    Listing(Window(store, ids, Skip(page, limit), limit), CeilDiv(|store|, limit), page)
  }

  /**
   `GET /`: the blogs at positions `[(page - 1) * limit, page * limit)` of a newest-first listing of
   the whole store — at most `limit` of them, each a stored blog under its own id and none twice;
   `totalPages` is the ceiling of the blog count over the limit and `currentPage` echoes the page,
   1 when it was missing, not a number, or 0.
   */
  method List(store: Store, pageQ: Option<int>, limitQ: Option<int>) returns (r: Listing)
    requires OrDefault(pageQ, DefaultPage) >= 1 && OrDefault(limitQ, DefaultLimit) >= 1
    ensures var page := OrDefault(pageQ, DefaultPage);
            var limit := OrDefault(limitQ, DefaultLimit);
            && r.currentPage == page
            && (pageQ.None? || pageQ == Some(0) ==> r.currentPage == DefaultPage)
            && (limitQ.None? || limitQ == Some(0) ==> r.totalPages == CeilDiv(|store|, DefaultLimit))
            && r.totalPages == CeilDiv(|store|, limit)
            && |r.blogs| <= limit
            && |r.blogs| == WindowSize(|store|, Skip(page, limit), limit)
            && Skip(page, limit) >= 0
            && exists ids :: IsRecencyOrder(store, ids) && r.blogs == Window(store, ids, Skip(page, limit), limit)
    ensures forall i :: 0 <= i < |r.blogs| ==> r.blogs[i].id in store && store[r.blogs[i].id] == r.blogs[i].blog
    ensures forall i, j :: 0 <= i < j < |r.blogs| ==> r.blogs[i].id != r.blogs[j].id
    ensures forall i, j :: 0 <= i < j < |r.blogs| ==> r.blogs[i].blog.createdAt >= r.blogs[j].blog.createdAt
  {
    var ids := SortByRecency(store);
    r := ListPage(store, ids, pageQ, limitQ);
    WindowOfRecencyOrder(store, ids, Skip(OrDefault(pageQ, DefaultPage), OrDefault(limitQ, DefaultLimit)), OrDefault(limitQ, DefaultLimit));
  }

  /** A window of a newest-first listing holds stored blogs under their own ids, none twice, newest first. */
  lemma WindowOfRecencyOrder(store: Store, ids: seq<BlogId>, skip: int, limit: int)
    requires IsRecencyOrder(store, ids) && skip >= 0 && limit >= 1
    ensures var w := Window(store, ids, skip, limit);
            && (forall i :: 0 <= i < |w| ==> w[i].id in store && store[w[i].id] == w[i].blog)
            && (forall i, j :: 0 <= i < j < |w| ==> w[i].id != w[j].id)
            && (forall i, j :: 0 <= i < j < |w| ==> w[i].blog.createdAt >= w[j].blog.createdAt)
  {
    var w := Window(store, ids, skip, limit);
    forall i, j | 0 <= i < j < |w|
      ensures w[i].id != w[j].id && w[i].blog.createdAt >= w[j].blog.createdAt
    {
      assert w[i].id == ids[skip + i] && w[j].id == ids[skip + j];
    }
  }

  /**
   The pages partition the listing: the blog at position `i` of the newest-first order is item
   `i % limit` of page `i / limit + 1`, and that page is within `totalPages`.
   */
  lemma EveryBlogOnItsPage(store: Store, ids: seq<BlogId>, limit: int, i: int)
    requires IsRecencyOrder(store, ids)
    requires limit >= 1 && 0 <= i < |ids|
    ensures var r := ListPage(store, ids, Some(i / limit + 1), Some(limit));
            && i % limit < |r.blogs|
            && r.blogs[i % limit] == Post(ids[i], store[ids[i]])
            && 1 <= r.currentPage <= r.totalPages
  {
    var page := i / limit + 1;
    PageOfIndex(i, limit);
    var r := ListPage(store, ids, Some(page), Some(limit));
    PageWithinTotal(page, limit, r.totalPages, |store|);
  }

  /** Position `i` sits at offset `i % limit` of page `i / limit + 1`. */
  lemma PageOfIndex(i: nat, limit: int)
    requires limit >= 1
    ensures 0 <= i % limit < limit
    ensures Skip(i / limit + 1, limit) + i % limit == i
  {
  }

  /** A page whose offset lies before the end of the listing is no later than the last page. */
  lemma PageWithinTotal(page: int, limit: int, totalPages: int, total: nat)
    requires page >= 1 && limit >= 1
    requires Skip(page, limit) < total <= totalPages * limit
    ensures page <= totalPages
  {
    var d := page - 1 - totalPages;
    assert d * limit == Skip(page, limit) - totalPages * limit;
    assert d >= 0 ==> d * limit >= 0;
  }

  /** Fifteen blogs with the default limit of ten: ten on page one, the remaining five on page two. */
  lemma FifteenBlogsTwoPages(store: Store, ids: seq<BlogId>)
    requires IsRecencyOrder(store, ids) && |store| == 15
    ensures var first := ListPage(store, ids, Some(1), None);
            var second := ListPage(store, ids, Some(2), None);
            && |first.blogs| == 10 && first.totalPages == 2 && first.currentPage == 1
            && |second.blogs| == 5 && second.totalPages == 2 && second.currentPage == 2
            && second.blogs[0] == Post(ids[10], store[ids[10]])
  {
  }
}

=== FILE: blogs.dfy ===
/**
 The blog resource store and its `/:id` handlers. The store is a map from blog id to blog; each
 handler returns a status, a response body and the store after the request. The identity of the
 caller (`req.user.id`) is the id `protect` attached; whether the store's cast accepts a route id
 as an ObjectId is the oracle `isObjectId` — a refused id is answered like a missing one.
 */
module Blogs {
  import opened Http
  import opened Accounts

  type BlogId = string

  /** A stored blog post. `author` is the id of the user who created it. */
  datatype Blog = Blog(title: string, content: string, author: UserId, createdAt: int)

  type Store = map<BlogId, Blog>

  /** A blog together with its id, as the API returns it. */
  datatype Post = Post(id: BlogId, blog: Blog)

  const BlogNotFoundMessage := "Blog not found"
  const NotAuthorMessage := "User not authorized"
  const RemovedMessage := "Blog removed"
  const ServerErrorMessage := "Server error"

  /** A response body: a blog, the removal confirmation `{msg}`, or `{error}`. */
  datatype Reply = Single(post: Post) | Removed(msg: string) | Error(error: string)

  /** A response, and the store after the request. */
  datatype Outcome = Outcome(status: int, reply: Reply, store: Store)

  /** Every entry of `store` outside `except` is still in `store'`, unchanged. */
  ghost predicate UnchangedExcept(store: Store, store': Store, except: set<BlogId>) {
    forall k :: k in store && k !in except ==> k in store' && store'[k] == store[k]
  }

  /** No blog present before and after has a different author afterwards. */
  ghost predicate AuthorsKept(store: Store, store': Store) {
    forall k :: k in store && k in store' ==> store'[k].author == store[k].author
  }

  /** `GET /:id`: the blog when the id is well formed and stored, 404 otherwise — never a server error. */
  function Get(store: Store, id: BlogId, isObjectId: BlogId -> bool): (r: Outcome)
    ensures r.store == store
    ensures r.status == OK || r.status == NotFound
    ensures r.status == OK <==> isObjectId(id) && id in store
    ensures r.status == OK ==> r.reply == Single(Post(id, store[id]))
    ensures r.status == NotFound ==> r.reply == Error(BlogNotFoundMessage)
  {
    if !isObjectId(id) || id !in store then Outcome(NotFound, Error(BlogNotFoundMessage), store)
    else Outcome(OK, Single(Post(id, store[id])), store)
  }

  /**
   `POST /`: stores a new blog authored by the caller under the id the store assigns and leaves every
   existing blog alone. Should the assigned id already be taken, the insert fails with 500.
   */
  function Create(store: Store, caller: UserId, title: string, content: string, newId: BlogId, now: int): (r: Outcome)
    ensures r.status == Created <==> newId !in store
    ensures r.status != Created ==> r.status == ServerError && r.store == store && r.reply == Error(ServerErrorMessage)
    ensures r.status == Created ==>
      && r.store.Keys == store.Keys + {newId}
      && UnchangedExcept(store, r.store, {})
      && r.store[newId].author == caller
      && r.store[newId].title == title && r.store[newId].content == content && r.store[newId].createdAt == now
      && r.reply == Single(Post(newId, r.store[newId]))
  {
    if newId in store then Outcome(ServerError, Error(ServerErrorMessage), store)
    else
      var blog := Blog(title, content, caller, now);
      Outcome(Created, Single(Post(newId, blog)), store[newId := blog])
  }

  /**
   `PUT /:id`: 404 for a missing (or malformed) id, then 401 for a caller who is not the author, both
   leaving the store as it was; otherwise only the title and content of that one blog change.
   */
  function Update(store: Store, caller: UserId, id: BlogId, isObjectId: BlogId -> bool, title: string, content: string): (r: Outcome)
    ensures r.status == NotFound <==> !isObjectId(id) || id !in store
    ensures r.status == Unauthorized <==> isObjectId(id) && id in store && store[id].author != caller
    ensures r.status == NotFound || r.status == Unauthorized || r.status == OK
    ensures r.status != OK ==> r.store == store
    ensures r.status == NotFound ==> r.reply == Error(BlogNotFoundMessage)
    ensures r.status == Unauthorized ==> r.reply == Error(NotAuthorMessage)
    ensures r.status == OK ==>
      && r.store.Keys == store.Keys
      && UnchangedExcept(store, r.store, {id})
      && r.store[id].title == title && r.store[id].content == content
      && r.store[id].author == store[id].author && r.store[id].createdAt == store[id].createdAt
      && r.reply == Single(Post(id, r.store[id]))
  {
    if !isObjectId(id) || id !in store then Outcome(NotFound, Error(BlogNotFoundMessage), store)
    else if store[id].author != caller then Outcome(Unauthorized, Error(NotAuthorMessage), store)
    else
      var blog := store[id].(title := title, content := content);
      Outcome(OK, Single(Post(id, blog)), store[id := blog])
  }

  /**
   `DELETE /:id`: the same 404-then-401 gates as update; on success exactly that id is removed,
   every other blog stays, and the body is `{msg: 'Blog removed'}`.
   */
  function Delete(store: Store, caller: UserId, id: BlogId, isObjectId: BlogId -> bool): (r: Outcome)
    ensures r.status == NotFound <==> !isObjectId(id) || id !in store
    ensures r.status == Unauthorized <==> isObjectId(id) && id in store && store[id].author != caller
    ensures r.status == NotFound || r.status == Unauthorized || r.status == OK
    ensures r.status != OK ==> r.store == store
    ensures r.status == NotFound ==> r.reply == Error(BlogNotFoundMessage)
    ensures r.status == Unauthorized ==> r.reply == Error(NotAuthorMessage)
    ensures r.status == OK ==>
      && r.store.Keys == store.Keys - {id}
      && UnchangedExcept(store, r.store, {id})
      && r.reply == Removed(RemovedMessage)
  {
    if !isObjectId(id) || id !in store then Outcome(NotFound, Error(BlogNotFoundMessage), store)
    else if store[id].author != caller then Outcome(Unauthorized, Error(NotAuthorMessage), store)
    else Outcome(OK, Removed(RemovedMessage), store - {id})
  }

  /** A request one authenticated user can make against the store. */
  datatype Request =
    | CreateRequest(title: string, content: string, newId: BlogId, now: int)
    | UpdateRequest(id: BlogId, title: string, content: string)
    | DeleteRequest(id: BlogId)

  /** Dispatches a request to its handler. */
  function Handle(store: Store, caller: UserId, req: Request, isObjectId: BlogId -> bool): Outcome {
    match req
    case CreateRequest(title, content, newId, now) => Create(store, caller, title, content, newId, now)
    case UpdateRequest(id, title, content) => Update(store, caller, id, isObjectId, title, content)
    case DeleteRequest(id) => Delete(store, caller, id, isObjectId)
  }

  /** The store after a sequence of requests by one caller. */
  function Run(store: Store, caller: UserId, reqs: seq<Request>, isObjectId: BlogId -> bool): Store
    decreases |reqs|
  {
    if |reqs| == 0 then store
    else Run(Handle(store, caller, reqs[0], isObjectId).store, caller, reqs[1..], isObjectId)
  }

  /** No handler ever gives an existing blog a different author. */
  lemma AuthorNeverReassigned(store: Store, caller: UserId, req: Request, isObjectId: BlogId -> bool)
    ensures AuthorsKept(store, Handle(store, caller, req, isObjectId).store)
  {
  }

  /**
   Whatever sequence of requests a user sends, every blog written by someone else is still there,
   unchanged, and every blog of someone else's afterwards was already there before.
   */
  lemma {:induction false} OthersBlogsUntouched(store: Store, caller: UserId, reqs: seq<Request>, isObjectId: BlogId -> bool)
    ensures var store' := Run(store, caller, reqs, isObjectId);
            && (forall k :: k in store && store[k].author != caller ==> k in store' && store'[k] == store[k])
            && (forall k :: k in store' && store'[k].author != caller ==> k in store && store[k] == store'[k])
    decreases |reqs|
  {
    if |reqs| > 0 {
      var next := Handle(store, caller, reqs[0], isObjectId).store;
      assert forall k :: k in store && store[k].author != caller ==> k in next && next[k] == store[k];
      assert forall k :: k in next && next[k].author != caller ==> k in store && store[k] == next[k];
      OthersBlogsUntouched(next, caller, reqs[1..], isObjectId);
    }
  }
}

=== FILE: middleware.dfy ===
/**
 The `protect` middleware: it reads a bearer token from the `Authorization` header, verifies it,
 looks the user up, and either rejects the request or passes it on with the password-less user attached.
 The user lookup `User.findById(id).select('-password')` is an oracle passed in by the caller.
 */
module Middleware {
  import opened Base
  import opened Strings
  import opened Http
  import opened Accounts

  const NotAuthorizedMessage := "Not authorized to access this route"
  const UserNotFoundMessage := "User not found"

  /** What the user lookup can do: find the user, find nothing, or throw (a malformed id, say). */
  datatype Lookup = Found(user: User) | Absent | LookupFailed

  /** The lookup only ever finds the user with the id it was asked for. */
  ghost predicate FindsById(findById: UserId -> Lookup) {
    forall id :: findById(id).Found? ==> findById(id).user.id == id
  }

  /** The outcome of `protect`: call the next handler with the attached user, or answer with an error. */
  datatype Gate = Proceed(user: PublicUser) | Reject(status: int, error: string)

  /** The header the client's request interceptor attaches: `` `Bearer ${token}` ``. */
  function BearerHeader(token: string): string {
    "Bearer " + token
  }

  /**
   The token of an `Authorization` header: when the header starts with `Bearer`, its second
   space-separated field, `split(' ')[1]`; an absent or empty field counts as no token.
   */
  function ExtractToken(header: Option<string>): (token: Option<string>)
    ensures token.Some? ==> header.Some? && StartsWith(header.value, "Bearer")
    ensures token.Some? ==> token.value != "" && ' ' !in token.value
  {
    match header
    case None => None
    case Some(h) =>
      if StartsWith(h, "Bearer") then
        var fields := Split(h, ' ');
        if |fields| > 1 && fields[1] != "" then Some(fields[1]) else None
      else None
  }

  /** The header the client builds gives back exactly the token it was built from. */
  lemma BearerRoundTrip(token: string)
    requires token != "" && ' ' !in token
    ensures ExtractToken(Some(BearerHeader(token))) == Some(token)
  {
    var h := BearerHeader(token);
    assert h == Join(["Bearer", token], ' ');
    SplitJoin(["Bearer", token], ' ');
    assert h[..6] == "Bearer";
  }

  /**
   For any header whose first space-separated field starts with `Bearer`, the token is the second
   field `t`, whatever follows it after a space — and there is none when that field is empty.
   */
  lemma SecondFieldIsToken(scheme: string, t: string, rest: string)
    requires StartsWith(scheme, "Bearer") && ' ' !in scheme
    requires ' ' !in t
    requires rest == "" || rest[0] == ' '
    ensures ExtractToken(Some(scheme + " " + t + rest)) == if t == "" then None else Some(t)
  {
    var h := scheme + " " + t + rest;
    assert h == scheme + [' '] + (t + rest);
    SplitAtFirst(scheme, t + rest, ' ');
    if rest == "" {
      assert t + rest == t;
      SplitWithoutSeparator(t, ' ');
    } else {
      assert t + rest == t + [' '] + rest[1..];
      SplitAtFirst(t, rest[1..], ' ');
    }
    assert h[..6] == scheme[..6];
  }

  /** A header without a space has no second field, so it carries no token. */
  lemma SingleFieldHasNoToken(h: string)
    requires ' ' !in h
    ensures ExtractToken(Some(h)) == None
  {
    SplitWithoutSeparator(h, ' ');
  }

  /** The scheme alone, `Bearer`, carries no token. */
  lemma SchemeAloneHasNoToken()
    ensures ExtractToken(Some("Bearer")) == None
  {
    SplitWithoutSeparator("Bearer", ' ');
  }

  /** The user id a request authenticates as: its token, verified; `None` when either step fails. */
  function Subject(header: Option<string>, decode: string -> Option<Claims>, now: int): (id: Option<UserId>)
    ensures id.Some? <==>
      ExtractToken(header).Some? && decode(ExtractToken(header).value).Some?
      && now < decode(ExtractToken(header).value).value.exp
    ensures id.Some? ==> id.value == decode(ExtractToken(header).value).value.id
  {
    match ExtractToken(header)
    case None => None
    case Some(token) => Verify(decode, token, now)
  }

  /** `protect`: 401 without a usable token or when verification fails, 404 when the token's user is gone. */
  function Protect(header: Option<string>, decode: string -> Option<Claims>, now: int, findById: UserId -> Lookup): (g: Gate)
    ensures ExtractToken(header).None? ==> g == Reject(Unauthorized, NotAuthorizedMessage)
    ensures g.Proceed? <==> Subject(header, decode, now).Some? && findById(Subject(header, decode, now).value).Found?
    ensures g.Proceed? ==> g.user == View(findById(Subject(header, decode, now).value).user)
    ensures g == Reject(NotFound, UserNotFoundMessage) <==>
      Subject(header, decode, now).Some? && findById(Subject(header, decode, now).value).Absent?
    ensures g.Reject? && g.status != NotFound ==> g == Reject(Unauthorized, NotAuthorizedMessage)
  {
    match ExtractToken(header)
    case None => Reject(Unauthorized, NotAuthorizedMessage)
    case Some(token) =>
      match Verify(decode, token, now)
      case None => Reject(Unauthorized, NotAuthorizedMessage)
      case Some(id) =>
        match findById(id)
        case Found(u) => Proceed(View(u))
        case Absent => Reject(NotFound, UserNotFoundMessage)
        case LookupFailed => Reject(Unauthorized, NotAuthorizedMessage)
  }

  /** A token that fails verification is answered exactly like a missing token. */
  lemma BadTokenLooksLikeMissingToken(header: Option<string>, decode: string -> Option<Claims>, now: int, findById: UserId -> Lookup)
    requires ExtractToken(header).Some? && Verify(decode, ExtractToken(header).value, now).None?
    ensures Protect(header, decode, now, findById) == Protect(None, decode, now, findById)
  {
  }
}

=== FILE: pagination.dfy ===
/**
 The pagination widget: `getPageNumbers` lists the page buttons between Previous and Next — the
 first and last page, the pages next to the current one, and '...' where pages are left out — and
 the Previous/Next buttons are disabled at either end.
 */
module Pagination {
  import opened Base

  /** One button of the page list: a page number or the '...' placeholder. */
  datatype Entry = Page(n: int) | Ellipsis

  /** Position `i` gets a number: the first page, the last page, or a page next to the current one. */
  predicate ShowsNumber(current: int, total: int, i: int) {
    i == 1 || i == total || (current - 1 <= i <= current + 1)
  }

  /** Position `i` gets '...': two before the current page when that is past 3, or two after it when that is before `total - 2`. */
  predicate ShowsEllipsis(current: int, total: int, i: int) {
    (i == current - 2 && current > 3) || (i == current + 2 && current < total - 2)
  }

  /** What one iteration of the loop pushes for position `i`: a number, '...', or nothing. */
  function Step(current: int, total: int, i: int): seq<Entry> {
    if ShowsNumber(current, total, i) then [Page(i)]
    else if ShowsEllipsis(current, total, i) then [Ellipsis]
    else []
  }

  /** The entries the loop `for (let i = 1; i <= n; i++)` has pushed after position `n`. */
  function Candidates(current: int, total: int, n: int): seq<Entry>
    decreases n
  {
    if n <= 0 then [] else Candidates(current, total, n - 1) + Step(current, total, n)
  }

  /** `arr.filter((x, idx) => arr.indexOf(x) === idx)`: each element at its first occurrence only. */
  function FirstOccurrences<T(==)>(xs: seq<T>): seq<T>
    decreases |xs|
  {
    if |xs| == 0 then []
    else
      var init := xs[..|xs| - 1];
      if xs[|xs| - 1] in init then FirstOccurrences(init) else FirstOccurrences(init) + [xs[|xs| - 1]]
  }

  /**
   `getPageNumbers`; the whole widget renders nothing (`null`) when there is at most one page.
   Otherwise the list holds exactly the entries the loop pushed, none of them twice, and the one
   '...' left sits where the loop first pushed one: before `current - 1` when pages are hidden on
   the left — and then never after `current + 1` — or else after `current + 1`.
   */
  function PageNumbers(current: int, total: int): (r: Option<seq<Entry>>)
    ensures r.None? <==> total <= 1
    ensures r.Some? ==> Distinct(r.value)
    ensures r.Some? ==> forall e :: e in r.value <==> e in Candidates(current, total, total)
    ensures r.Some? && 1 <= current <= total && EllipsisAt(current, total, current - 2) ==>
      EllipsisBefore(r.value, current - 1) && !EllipsisAfter(r.value, current + 1)
    ensures r.Some? && 1 <= current <= total && !EllipsisAt(current, total, current - 2) && EllipsisAt(current, total, current + 2) ==>
      EllipsisAfter(r.value, current + 1)
  {
    if total <= 1 then None
    else
      var c := Candidates(current, total, total);
      FirstOccurrencesMembers(c);
      FirstOccurrencesNoDuplicates(c);
      LeftEllipsisKept(current, total);
      RightEllipsisKept(current, total);
      Some(FirstOccurrences(c))
  }

  /** Previous is disabled on the first page. */
  predicate PreviousDisabled(current: int) {
    current == 1
  }

  /** Next is disabled on the last page. */
  predicate NextDisabled(current: int, total: int) {
    current == total
  }

  /** The page numbers of a list increase strictly from left to right. */
  ghost predicate IncreasingPages(s: seq<Entry>) {
    forall i, j :: 0 <= i < j < |s| && s[i].Page? && s[j].Page? ==> s[i].n < s[j].n
  }

  /** Position `i` is one where '...' is pushed. */
  predicate EllipsisAt(current: int, total: int, i: int) {
    1 <= i <= total && !ShowsNumber(current, total, i) && ShowsEllipsis(current, total, i)
  }

  /** How many of the two '...' positions the loop reaches by position `n`. */
  function EllipsisPositions(current: int, total: int, n: int): nat {
    (if current - 2 <= n && EllipsisAt(current, total, current - 2) then 1 else 0) +
    (if current + 2 <= n && EllipsisAt(current, total, current + 2) then 1 else 0)
  }

  // ---- the loop ----

  /** After position `n` the numbers pushed are exactly the positions up to `n` that show a number. */
  lemma {:induction false} CandidatesNumbers(current: int, total: int, n: int)
    ensures forall p :: Page(p) in Candidates(current, total, n) <==> 1 <= p <= n && ShowsNumber(current, total, p)
    decreases n
  {
    if n > 0 {
      CandidatesNumbers(current, total, n - 1);
    }
  }

  /** The numbers pushed lie in `[1, n]`, increase strictly, and there is at most one entry per position. */
  lemma {:induction false} CandidatesOrdered(current: int, total: int, n: int)
    ensures forall i :: 0 <= i < |Candidates(current, total, n)| && Candidates(current, total, n)[i].Page? ==>
      1 <= Candidates(current, total, n)[i].n <= n
    ensures IncreasingPages(Candidates(current, total, n))
    ensures n >= 0 ==> |Candidates(current, total, n)| <= n
    decreases n
  {
    if n > 0 {
      CandidatesOrdered(current, total, n - 1);
      var prev := Candidates(current, total, n - 1);
      var c := Candidates(current, total, n);
      assert c == prev + Step(current, total, n);
      forall i, j | 0 <= i < j < |c| && c[i].Page? && c[j].Page?
        ensures c[i].n < c[j].n
      {
        if j >= |prev| {
          assert c[i] == prev[i];
        } else {
          assert c[i] == prev[i] && c[j] == prev[j];
        }
      }
    }
  }

  /** The loop pushes one '...' for each of the two '...' positions it has passed. */
  lemma {:induction false} CandidatesEllipses(current: int, total: int, n: int)
    requires n <= total
    ensures multiset(Candidates(current, total, n))[Ellipsis] == EllipsisPositions(current, total, n)
    decreases n
  {
    if n > 0 {
      CandidatesEllipses(current, total, n - 1);
      var prev := Candidates(current, total, n - 1);
      var step := Step(current, total, n);
      assert Candidates(current, total, n) == prev + step;
      assert multiset(prev + step)[Ellipsis] == multiset(prev)[Ellipsis] + multiset(step)[Ellipsis];
      StepEllipsis(current, total, n);
      EllipsisPositionsStep(current, total, n);
    } else {
      assert EllipsisPositions(current, total, n) == 0;
    }
  }

  /** Within `[1, total]` a position pushes '...' exactly when it is a '...' position. */
  lemma StepEllipsis(current: int, total: int, n: int)
    requires 1 <= n <= total
    ensures multiset(Step(current, total, n))[Ellipsis] == if EllipsisAt(current, total, n) then 1 else 0
  {
  }

  /** Passing position `n` adds one to the '...' positions passed exactly when `n` is one. */
  lemma EllipsisPositionsStep(current: int, total: int, n: int)
    ensures EllipsisPositions(current, total, n) ==
      EllipsisPositions(current, total, n - 1) + (if EllipsisAt(current, total, n) then 1 else 0)
  {
  }

  // ---- the first-occurrence filter ----

  /** The filter keeps exactly the elements of its input. */
  lemma {:induction false} FirstOccurrencesMembers<T>(xs: seq<T>)
    ensures forall x :: x in FirstOccurrences(xs) <==> x in xs
    ensures |FirstOccurrences(xs)| <= |xs|
    decreases |xs|
  {
    if |xs| > 0 {
      var init := xs[..|xs| - 1];
      FirstOccurrencesMembers(init);
      assert xs == init + [xs[|xs| - 1]];
    }
  }

  /** The filter leaves no element twice. */
  lemma {:induction false} FirstOccurrencesNoDuplicates<T>(xs: seq<T>)
    ensures Distinct(FirstOccurrences(xs))
    decreases |xs|
  {
    if |xs| > 0 {
      var init := xs[..|xs| - 1];
      FirstOccurrencesNoDuplicates(init);
      FirstOccurrencesMembers(init);
    }
  }

  /** The filter keeps the order of the numbers. */
  lemma {:induction false} FirstOccurrencesIncreasing(xs: seq<Entry>)
    requires IncreasingPages(xs)
    ensures IncreasingPages(FirstOccurrences(xs))
    decreases |xs|
  {
    if |xs| > 0 {
      var init := xs[..|xs| - 1];
      var last := xs[|xs| - 1];
      assert IncreasingPages(init) by {
        forall i, j | 0 <= i < j < |init| && init[i].Page? && init[j].Page?
          ensures init[i].n < init[j].n
        {
          assert init[i] == xs[i] && init[j] == xs[j];
        }
      }
      FirstOccurrencesIncreasing(init);
      FirstOccurrencesMembers(init);
      var d := FirstOccurrences(init);
      if last !in init && last.Page? {
        forall k | 0 <= k < |d| && d[k].Page?
          ensures d[k].n < last.n
        {
          assert d[k] in init;
          var m :| 0 <= m < |init| && init[m] == d[k];
          assert xs[m] == d[k];
        }
        var r := d + [last];
        forall i, j | 0 <= i < j < |r| && r[i].Page? && r[j].Page?
          ensures r[i].n < r[j].n
        {
          assert r[i] == d[i];
          if j < |d| {
            assert r[j] == d[j];
          }
        }
      }
    }
  }

  /**
   The filter keeps the input's order: when `x` sits at position `k` and `y` occurs only after
   it, the filter lists `x` before `y`.
   */
  lemma {:induction false} FirstOccurrencesKeepOrder<T>(xs: seq<T>, k: int, x: T, y: T)
    requires 0 <= k < |xs| && xs[k] == x
    requires y in xs && y !in xs[..k + 1]
    ensures exists i, j :: 0 <= i < j < |FirstOccurrences(xs)| && FirstOccurrences(xs)[i] == x && FirstOccurrences(xs)[j] == y
    decreases |xs|
  {
    var n := |xs|;
    var init := xs[..n - 1];
    var last := xs[n - 1];
    var d := FirstOccurrences(init);
    var r := FirstOccurrences(xs);
    assert xs[..n] == xs;
    if y in init {
      assert init[..k + 1] == xs[..k + 1];
      FirstOccurrencesKeepOrder(init, k, x, y);
      var i, j :| 0 <= i < j < |d| && d[i] == x && d[j] == y;
      assert r[..|d|] == d;
      assert r[i] == x && r[j] == y;
    } else {
      assert xs[..k + 1][k] == x;
      assert last == y && x != y;
      assert k < n - 1 && init[k] == x;
      FirstOccurrencesMembers(init);
      assert x in init;
      assert x in d;
      var i :| 0 <= i < |d| && d[i] == x;
      assert r == d + [y];
      assert r[i] == x && r[|d|] == y;
    }
  }

  // ---- getPageNumbers as written ----

  /**
   Shape of `getPageNumbers` for more than one page: a number is listed exactly when it is the first
   page, the last page, or next to the current page and within `[1, total]`; numbers increase strictly;
   no entry repeats, so at most one '...' survives; and there are at most `total` entries.
   */
  lemma PageNumbersShape(current: int, total: int)
    requires total > 1
    ensures PageNumbers(current, total).Some?
    ensures var r := PageNumbers(current, total).value;
            && (forall p :: Page(p) in r <==> 1 <= p <= total && ShowsNumber(current, total, p))
            && (forall i :: 0 <= i < |r| && r[i].Page? ==> 1 <= r[i].n <= total)
            && IncreasingPages(r)
            && Distinct(r)
            && multiset(r)[Ellipsis] <= 1
            && (Ellipsis in r <==> EllipsisPositions(current, total, total) > 0)
            && |r| <= total
    ensures var r := PageNumbers(current, total).value;
            && (1 <= current <= total && EllipsisAt(current, total, current - 2) ==>
                  EllipsisBefore(r, current - 1) && !EllipsisAfter(r, current + 1))
            && (1 <= current <= total && !EllipsisAt(current, total, current - 2) && EllipsisAt(current, total, current + 2) ==>
                  EllipsisAfter(r, current + 1))
  {
    var c := Candidates(current, total, total);
    var r := FirstOccurrences(c);
    assert PageNumbers(current, total) == Some(r);
    CandidatesNumbers(current, total, total);
    CandidatesOrdered(current, total, total);
    FilteredNumbersInRange(c, total);
    FirstOccurrencesMembers(c);
    FirstOccurrencesNoDuplicates(c);
    FirstOccurrencesIncreasing(c);
    AtMostOnce(r, Ellipsis);
    CandidatesEllipses(current, total, total);
    assert Ellipsis in c <==> multiset(c)[Ellipsis] > 0;
  }

  /** The filter keeps numbers within a range within it. */
  lemma FilteredNumbersInRange(c: seq<Entry>, total: int)
    requires forall i :: 0 <= i < |c| && c[i].Page? ==> 1 <= c[i].n <= total
    ensures forall i :: 0 <= i < |FirstOccurrences(c)| && FirstOccurrences(c)[i].Page? ==> 1 <= FirstOccurrences(c)[i].n <= total
  {
    var r := FirstOccurrences(c);
    FirstOccurrencesMembers(c);
    forall i | 0 <= i < |r| && r[i].Page?
      ensures 1 <= r[i].n <= total
    {
      assert r[i] in c;
      var m :| 0 <= m < |c| && c[m] == r[i];
    }
  }

  /** A list without duplicates holds any element at most once. */
  lemma {:induction false} AtMostOnce<T>(s: seq<T>, x: T)
    requires Distinct(s)
    ensures multiset(s)[x] <= 1
    decreases |s|
  {
    if |s| > 0 {
      var init := s[..|s| - 1];
      assert s == init + [s[|s| - 1]];
      assert Distinct(init) by {
        forall i, j | 0 <= i < j < |init|
          ensures init[i] != init[j]
        {
          assert init[i] == s[i] && init[j] == s[j];
        }
      }
      AtMostOnce(init, x);
      if s[|s| - 1] == x {
        assert x !in init by {
          forall m | 0 <= m < |init|
            ensures init[m] != x
          {
            assert init[m] == s[m];
          }
        }
      }
    }
  }

  /** Previous and Next are enabled exactly when the page they lead to exists. */
  lemma NavigationStaysInRange(current: int, total: int)
    requires 1 <= current <= total
    ensures !PreviousDisabled(current) <==> 1 <= current - 1
    ensures !NextDisabled(current, total) <==> current + 1 <= total
  {
  }

  /** Previous is enabled exactly when the page before the current one is listed as a number. */
  lemma PreviousEnabledIffPreviousListed(current: int, total: int)
    requires 1 <= current <= total && total > 1
    ensures !PreviousDisabled(current) <==> Page(current - 1) in PageNumbers(current, total).value
  {
    PageNumbersShape(current, total);
  }

  /** Next is enabled exactly when the page after the current one is listed as a number. */
  lemma NextEnabledIffNextListed(current: int, total: int)
    requires 1 <= current <= total && total > 1
    ensures !NextDisabled(current, total) <==> Page(current + 1) in PageNumbers(current, total).value
  {
    PageNumbersShape(current, total);
  }

  /**
   A '...' at position `k`, with the number `p` only after it, is listed before `p` by the filter;
   and since no other '...' survives and numbers stay increasing, none is listed after a larger `q`.
   */
  lemma FilterKeepsEarlyEllipsis(c: seq<Entry>, k: int, p: int, q: int)
    requires 0 <= k < |c| && c[k] == Ellipsis
    requires Page(p) in c && Page(p) !in c[..k + 1]
    requires IncreasingPages(c) && p < q
    ensures EllipsisBefore(FirstOccurrences(c), p) && !EllipsisAfter(FirstOccurrences(c), q)
  {
    FirstOccurrencesKeepOrder(c, k, Ellipsis, Page(p));
    var r := FirstOccurrences(c);
    var i0, j0 :| 0 <= i0 < j0 < |r| && r[i0] == Ellipsis && r[j0] == Page(p);
    FirstOccurrencesIncreasing(c);
    FirstOccurrencesNoDuplicates(c);
    forall a, b | 0 <= a < b < |r| && r[a] == Page(q)
      ensures r[b] != Ellipsis
    {
      assert j0 < a;
      assert r[b] != r[i0];
    }
  }

  /** The loop's '...' at position `current - 2` is its entry `k`, and the number `current - 1` comes only after it. */
  lemma LeftEllipsisPushed(current: int, total: int) returns (k: int)
    requires 1 <= current <= total && EllipsisAt(current, total, current - 2)
    ensures var c := Candidates(current, total, total);
            && 0 <= k < |c| && c[k] == Ellipsis
            && Page(current - 1) in c && Page(current - 1) !in c[..k + 1]
  {
    var m := current - 2;
    var c := Candidates(current, total, total);
    var pre := Candidates(current, total, m);
    assert pre == Candidates(current, total, m - 1) + [Ellipsis];
    CandidatesSplit(current, total, m, total);
    CandidatesNumbers(current, total, m);
    CandidatesNumbers(current, total, total);
    k := |pre| - 1;
    assert c[..k + 1] == pre;
  }

  /**
   When position `current - 2` takes '...', the filter keeps that '...' before the number
   `current - 1`, and, being the only one left, it is not also listed after `current + 1`.
   */
  lemma LeftEllipsisKept(current: int, total: int)
    ensures var r := FirstOccurrences(Candidates(current, total, total));
            1 <= current <= total && EllipsisAt(current, total, current - 2) ==>
              EllipsisBefore(r, current - 1) && !EllipsisAfter(r, current + 1)
  {
    if 1 <= current <= total && EllipsisAt(current, total, current - 2) {
      var k := LeftEllipsisPushed(current, total);
      CandidatesOrdered(current, total, total);
      FilterKeepsEarlyEllipsis(Candidates(current, total, total), k, current - 1, current + 1);
    }
  }

  /** Without a '...' at `current - 2`, the loop's entry `k` is the number `current + 1`, the next is '...', and no '...' comes earlier. */
  lemma RightEllipsisPushed(current: int, total: int) returns (k: int)
    requires 1 <= current <= total && !EllipsisAt(current, total, current - 2) && EllipsisAt(current, total, current + 2)
    ensures var c := Candidates(current, total, total);
            && 0 <= k < |c| && c[k] == Page(current + 1)
            && Ellipsis in c && Ellipsis !in c[..k + 1]
  {
    var m := current + 2;
    var c := Candidates(current, total, total);
    var before := Candidates(current, total, m - 1);
    assert Candidates(current, total, m) == before + [Ellipsis];
    assert before == Candidates(current, total, m - 2) + [Page(current + 1)];
    CandidatesEllipses(current, total, m - 1);
    assert Ellipsis !in before by {
      assert multiset(before)[Ellipsis] == 0;
    }
    CandidatesSplit(current, total, m, total);
    k := |before| - 1;
    assert c[..k + 1] == before;
    assert c[k + 1] == Ellipsis;
  }

  /**
   When only position `current + 2` takes '...', the loop pushes no '...' before the number
   `current + 1`, so the filter keeps the '...' after it.
   */
  lemma RightEllipsisKept(current: int, total: int)
    ensures var r := FirstOccurrences(Candidates(current, total, total));
            1 <= current <= total && !EllipsisAt(current, total, current - 2) && EllipsisAt(current, total, current + 2) ==>
              EllipsisAfter(r, current + 1)
  {
    if 1 <= current <= total && !EllipsisAt(current, total, current - 2) && EllipsisAt(current, total, current + 2) {
      var k := RightEllipsisPushed(current, total);
      FirstOccurrencesKeepOrder(Candidates(current, total, total), k, Page(current + 1), Ellipsis);
    }
  }

  // ---- the second '...' ----

  /** Some '...' is listed to the left of the number `p`. */
  ghost predicate EllipsisBefore(r: seq<Entry>, p: int) {
    exists i, j :: 0 <= i < j < |r| && r[i] == Ellipsis && r[j] == Page(p)
  }

  /** Some '...' is listed to the right of the number `p`. */
  ghost predicate EllipsisAfter(r: seq<Entry>, p: int) {
    exists i, j :: 0 <= i < j < |r| && r[i] == Page(p) && r[j] == Ellipsis
  }

  /**
   With pages hidden on both sides of the current page the loop pushes two '...', but the
   first-occurrence filter treats the second as a duplicate of the first: on page 5 of 10 the
   list is `1 ... 4 5 6 10`, with nothing marking that pages 7 to 9 are left out.
   */
  lemma SecondEllipsisDropped()
    ensures PageNumbers(5, 10) == Some([Page(1), Ellipsis, Page(4), Page(5), Page(6), Page(10)])
    ensures !EllipsisAfter(PageNumbers(5, 10).value, 6)
  {
    LoopOnFiveOfTen();
    FilterOnFiveOfTen();
    var r := [Page(1), Ellipsis, Page(4), Page(5), Page(6), Page(10)];
    assert PageNumbers(5, 10) == Some(r);
    assert forall i :: 0 <= i < |r| && r[i] == Page(6) ==> i == 4;
  }

  /** What the loop pushes on page 5 of 10. */
  lemma LoopOnFiveOfTen()
    ensures Candidates(5, 10, 10) == [Page(1), Ellipsis, Page(4), Page(5), Page(6), Ellipsis, Page(10)]
  {
    assert Candidates(5, 10, 3) == [Page(1), Ellipsis];
    assert Candidates(5, 10, 6) == [Page(1), Ellipsis, Page(4), Page(5), Page(6)];
  }

  /** The filter drops the second '...' of what the loop pushes on page 5 of 10. */
  lemma FilterOnFiveOfTen()
    ensures FirstOccurrences([Page(1), Ellipsis, Page(4), Page(5), Page(6), Ellipsis, Page(10)])
         == [Page(1), Ellipsis, Page(4), Page(5), Page(6), Page(10)]
  {
    var s1 := [Page(1)];
    var s2 := s1 + [Ellipsis];
    var s3 := s2 + [Page(4)];
    var s4 := s3 + [Page(5)];
    var s5 := s4 + [Page(6)];
    var s6 := s5 + [Ellipsis];
    var c := s6 + [Page(10)];
    assert s2[..|s2| - 1] == s1 && s3[..|s3| - 1] == s2 && s4[..|s4| - 1] == s3;
    assert s5[..|s5| - 1] == s4 && s6[..|s6| - 1] == s5 && c[..|c| - 1] == s6;
    assert [Page(1)][..0] == [];
    assert FirstOccurrences(s1) == s1;
    assert FirstOccurrences(s2) == s2;
    assert FirstOccurrences(s3) == s3;
    assert FirstOccurrences(s4) == s4;
    assert FirstOccurrences(s5) == s5;
    assert s5[1] == Ellipsis;
    assert FirstOccurrences(s6) == s5;
    assert c == [Page(1), Ellipsis, Page(4), Page(5), Page(6), Ellipsis, Page(10)];
    assert s5 + [Page(10)] == [Page(1), Ellipsis, Page(4), Page(5), Page(6), Page(10)];
  }

  /** Whenever both '...' positions apply, the loop pushes two '...' and the filter keeps only one. */
  lemma FilterKeepsOneOfTwoEllipses(current: int, total: int)
    requires total > 1 && EllipsisPositions(current, total, total) == 2
    ensures multiset(Candidates(current, total, total))[Ellipsis] == 2
    ensures multiset(PageNumbers(current, total).value)[Ellipsis] == 1
  {
    CandidatesEllipses(current, total, total);
    PageNumbersShape(current, total);
    var r := PageNumbers(current, total).value;
    assert Ellipsis in r;
  }

  /** `getPageNumbers` without the filter: the loop already pushes no number twice. */
  function PageNumbersIntended(current: int, total: int): Option<seq<Entry>> {
    if total <= 1 then None else Some(Candidates(current, total, total))
  }

  /** The positions after `m` up to `n` that the loop visits. */
  function Between(current: int, total: int, m: int, n: int): seq<Entry>
    decreases n - m
  {
    if n <= m then [] else Between(current, total, m, n - 1) + Step(current, total, n)
  }

  /** The loop's entries up to `n` are those up to `m` followed by those after `m`. */
  lemma {:induction false} CandidatesSplit(current: int, total: int, m: int, n: int)
    requires 0 <= m <= n
    ensures Candidates(current, total, n) == Candidates(current, total, m) + Between(current, total, m, n)
    decreases n - m
  {
    if n > m {
      CandidatesSplit(current, total, m, n - 1);
    }
  }

  /** Any entry listed in the loop's entries after `m` up to `n` comes after every entry up to `m`. */
  lemma ListedAfterPrefix(current: int, total: int, m: int, n: int, x: Entry, y: Entry)
    requires 0 <= m <= n
    requires x in Candidates(current, total, m)
    requires y in Candidates(current, total, n) && y !in Candidates(current, total, m)
    ensures exists i, j :: (0 <= i < j < |Candidates(current, total, n)| &&
      Candidates(current, total, n)[i] == x && Candidates(current, total, n)[j] == y)
  {
    var pre := Candidates(current, total, m);
    var c := Candidates(current, total, n);
    CandidatesSplit(current, total, m, n);
    var post := Between(current, total, m, n);
    var i :| 0 <= i < |pre| && pre[i] == x;
    var k :| 0 <= k < |post| && post[k] == y;
    assert c[i] == x && c[|pre| + k] == y;
  }

  /**
   The intended list keeps a '...' for each side where pages are hidden: one before the number
   `current - 1` when position `current - 2` takes '...', one after the number `current + 1` when
   position `current + 2` does, and no other; the numbers are as in `PageNumbersShape`.
   */
  lemma PageNumbersIntendedShape(current: int, total: int)
    requires 1 <= current <= total && total > 1
    ensures PageNumbersIntended(current, total).Some?
    ensures var r := PageNumbersIntended(current, total).value;
            && (forall p :: Page(p) in r <==> 1 <= p <= total && ShowsNumber(current, total, p))
            && IncreasingPages(r)
            && multiset(r)[Ellipsis] == EllipsisPositions(current, total, total)
            && (EllipsisAt(current, total, current - 2) ==> EllipsisBefore(r, current - 1))
            && (EllipsisAt(current, total, current + 2) ==> EllipsisAfter(r, current + 1))
            && |r| <= total
  {
    var r := Candidates(current, total, total);
    CandidatesNumbers(current, total, total);
    CandidatesOrdered(current, total, total);
    CandidatesEllipses(current, total, total);
    LeftEllipsisListed(current, total);
    RightEllipsisListed(current, total);
  }

  /** When position `current - 2` takes '...', the loop lists it before the number `current - 1`. */
  lemma LeftEllipsisListed(current: int, total: int)
    requires 1 <= current <= total
    ensures EllipsisAt(current, total, current - 2) ==> EllipsisBefore(Candidates(current, total, total), current - 1)
  {
    if EllipsisAt(current, total, current - 2) {
      var m := current - 2;
      assert Candidates(current, total, m) == Candidates(current, total, m - 1) + [Ellipsis];
      CandidatesNumbers(current, total, m);
      CandidatesNumbers(current, total, total);
      ListedAfterPrefix(current, total, m, total, Ellipsis, Page(current - 1));
    }
  }

  /** When position `current + 2` takes '...', the loop lists it after the number `current + 1`. */
  lemma RightEllipsisListed(current: int, total: int)
    requires 1 <= current <= total
    ensures EllipsisAt(current, total, current + 2) ==> EllipsisAfter(Candidates(current, total, total), current + 1)
  {
    if EllipsisAt(current, total, current + 2) {
      var m := current + 2;
      assert Candidates(current, total, m) == Candidates(current, total, m - 1) + [Ellipsis];
      assert Candidates(current, total, m - 1) == Candidates(current, total, m - 2) + [Page(current + 1)];
      var c := Candidates(current, total, m);
      var i, j := |c| - 2, |c| - 1;
      assert c[i] == Page(current + 1) && c[j] == Ellipsis;
      CandidatesSplit(current, total, m, total);
      var r := Candidates(current, total, total);
      assert r[i] == c[i] && r[j] == c[j];
    }
  }
}

=== FILE: strings.dfy ===
/** The optional value used throughout the model (JavaScript's `undefined`/`null` versus a value). */
module Base {
  datatype Option<+T> = None | Some(value: T)

  /** No element occurs twice in `s`. */
  ghost predicate Distinct<T>(s: seq<T>) {
    forall i, j :: 0 <= i < j < |s| ==> s[i] != s[j]
  }
}

/**
 The few JavaScript string operations the blog application relies on, over `string == seq<char>`:
 `startsWith`, `split` on a one-character separator (and its inverse `join`), and `trim`.
 */
module Strings {

  /** JavaScript `s.startsWith(prefix)`. */
  function StartsWith(s: string, prefix: string): (b: bool)
    ensures b <==> |prefix| <= |s| && forall i :: 0 <= i < |prefix| ==> s[i] == prefix[i]
    ensures b ==> s == prefix + s[|prefix|..]
  {
    |prefix| <= |s| && s[..|prefix|] == prefix
  }

  /** Number of occurrences of `c` in `s`. */
  function Count(s: string, c: char): nat {
    if |s| == 0 then 0 else (if s[0] == c then 1 else 0) + Count(s[1..], c)
  }

  /**
   JavaScript `s.split(sep)` for a one-character separator: one more piece than there are
   separators, none of which holds the separator; the empty string splits into `[""]`.
   */
  function Split(s: string, sep: char): (parts: seq<string>)
    ensures |parts| == Count(s, sep) + 1
    ensures forall i :: 0 <= i < |parts| ==> sep !in parts[i]
  {
    if |s| == 0 then [""]
    else
      var rest := Split(s[1..], sep);
      if s[0] == sep then [""] + rest
      else
        assert sep !in [s[0]] + rest[0];
        [[s[0]] + rest[0]] + rest[1..]
  }

  /** JavaScript `parts.join(sep)`. */
  function Join(parts: seq<string>, sep: char): string {
    if |parts| == 0 then ""
    else if |parts| == 1 then parts[0]
    else parts[0] + [sep] + Join(parts[1..], sep)
  }

  /** Joining the pieces of a split with the same separator gives back the original string. */
  lemma {:induction false} JoinSplit(s: string, sep: char)
    ensures Join(Split(s, sep), sep) == s
  {
    if |s| > 0 {
      var rest := Split(s[1..], sep);
      JoinSplit(s[1..], sep);
      if s[0] == sep {
        assert Split(s, sep) == [""] + rest;
        assert ([""] + rest)[1..] == rest;
      } else if |rest| == 1 {
        assert Split(s, sep) == [[s[0]] + rest[0]];
      } else {
        var parts := Split(s, sep);
        assert parts == [[s[0]] + rest[0]] + rest[1..];
        assert parts[1..] == rest[1..];
        assert Join(rest, sep) == rest[0] + [sep] + Join(rest[1..], sep);
        assert s == [s[0]] + s[1..];
      }
    }
  }

  /** A string without the separator splits into itself. */
  lemma {:induction false} SplitWithoutSeparator(a: string, sep: char)
    requires sep !in a
    ensures Split(a, sep) == [a]
  {
    if |a| > 0 {
      SplitWithoutSeparator(a[1..], sep);
      assert a == [a[0]] + a[1..];
    }
  }

  /** Splitting at the first separator peels off the text before it. */
  lemma {:induction false} SplitAtFirst(a: string, b: string, sep: char)
    requires sep !in a
    ensures Split(a + [sep] + b, sep) == [a] + Split(b, sep)
  {
    if |a| == 0 {
      assert (a + [sep] + b)[1..] == b;
    } else {
      SplitAtFirst(a[1..], b, sep);
      assert (a + [sep] + b)[1..] == a[1..] + [sep] + b;
      assert a == [a[0]] + a[1..];
    }
  }

  /** Splitting the join of separator-free pieces gives back the pieces. */
  lemma {:induction false} SplitJoin(parts: seq<string>, sep: char)
    requires |parts| >= 1
    requires forall i :: 0 <= i < |parts| ==> sep !in parts[i]
    ensures Split(Join(parts, sep), sep) == parts
  {
    if |parts| == 1 {
      SplitWithoutSeparator(parts[0], sep);
    } else {
      SplitJoin(parts[1..], sep);
      SplitAtFirst(parts[0], Join(parts[1..], sep), sep);
      assert parts == [parts[0]] + parts[1..];
    }
  }

  /** The characters JavaScript's `trim` removes: WhiteSpace and LineTerminator of ECMA-262, section 12.2 and 12.3. */
  predicate IsWhitespace(c: char) {
    || c == '\t' || c == '\n' || c == '\U{000B}' || c == '\U{000C}' || c == '\r' || c == ' '
    || c == '\U{00A0}' || c == '\U{1680}' || ('\U{2000}' <= c <= '\U{200A}')
    || c == '\U{2028}' || c == '\U{2029}' || c == '\U{202F}' || c == '\U{205F}'
    || c == '\U{3000}' || c == '\U{FEFF}'
  }

  /** True iff every character of `s` is whitespace (vacuously true of the empty string). */
  predicate AllWhitespace(s: string) {
    forall i :: 0 <= i < |s| ==> IsWhitespace(s[i])
  }

  /** `s` without its leading whitespace: the longest suffix that does not start with whitespace. */
  function TrimStart(s: string): (r: string)
    ensures |r| <= |s| && r == s[|s| - |r|..]
    ensures forall i :: 0 <= i < |s| - |r| ==> IsWhitespace(s[i])
    ensures AllWhitespace(s[..|s| - |r|])
    ensures |r| > 0 ==> !IsWhitespace(r[0])
  {
    if |s| > 0 && IsWhitespace(s[0]) then TrimStart(s[1..]) else s
  }

  /** `s` without its trailing whitespace: the longest prefix that does not end with whitespace. */
  function TrimEnd(s: string): (r: string)
    ensures |r| <= |s| && r == s[..|r|]
    ensures forall i :: |r| <= i < |s| ==> IsWhitespace(s[i])
    ensures AllWhitespace(s[|r|..])
    ensures |r| > 0 ==> !IsWhitespace(r[|r| - 1])
  {
    if |s| > 0 && IsWhitespace(s[|s| - 1]) then TrimEnd(s[..|s| - 1]) else s
  }

  /** Cutting a whitespace head off `s`, then a whitespace tail off the rest, leaves a slice of `s` with whitespace on both sides. */
  lemma SliceBetweenWhitespace(s: string, t: string, r: string)
    requires |t| <= |s| && t == s[|s| - |t|..] && AllWhitespace(s[..|s| - |t|])
    requires |r| <= |t| && r == t[..|r|] && AllWhitespace(t[|r|..])
    ensures var i := |s| - |t|;
            r == s[i..i + |r|] && AllWhitespace(s[..i]) && AllWhitespace(s[i + |r|..])
  {
    var i := |s| - |t|;
    assert t[|r|..] == s[i + |r|..];
  }

  /** JavaScript `s.trim()`: `s` stripped of whitespace at both ends. */
  function Trim(s: string): (r: string)
    ensures |r| <= |s|
    ensures |r| > 0 ==> !IsWhitespace(r[0]) && !IsWhitespace(r[|r| - 1])
    ensures exists i, j :: 0 <= i <= j <= |s| && r == s[i..j] && AllWhitespace(s[..i]) && AllWhitespace(s[j..])
  {
    var t := TrimStart(s);
    var r := TrimEnd(t);
    SliceBetweenWhitespace(s, t, r);
    r
  }

  /** A string trims to the empty string exactly when it is nothing but whitespace. */
  lemma TrimEmptyIffBlank(s: string)
    ensures Trim(s) == "" <==> AllWhitespace(s)
  {
    var t := TrimStart(s);
    assert |t| > 0 ==> t[0] == s[|s| - |t|];
  }
}
